=== FILE: README.md ===
# httpx request binder, modelled in Dafny

This project models the request binder of the `httpx` package (`bind.go`).
The binder fills a Go destination object from an HTTP request in three
layers:

- **Dispatch** (`BindBody`, `BindQueryParams`, `Bind`). `BindBody` picks a
  decoder from the Content-Type prefix: JSON, XML, or form/multipart. A form
  body is walked by the field walker under the `form` tag. Any other type is
  refused with 415 Unsupported Media Type. `BindQueryParams` walks the query
  parameters under the `query` tag. `Bind` runs the body step for POST, PUT
  and PATCH, and then, unless the body step fails, runs the query step into
  the same destination, so query values override body values.
- **Field walker** (`bindData`). A map destination receives the first value
  of every key. A destination that is not a struct is silently skipped for
  the query source and is an error otherwise. A struct is walked field by
  field in declaration order:
  - an embedded pointer is followed to its target;
  - unexported fields and nil embedded pointers are skipped;
  - a tagged embedded struct is an error;
  - an untagged struct is searched recursively unless it is a
    `BindUnmarshaler`;
  - a tagged field is looked up by its exact key, then by the first key that
    matches up to case;
  - the values found go to a custom decoder first, then to a slice (one
    element per value), and otherwise to the scalar coercer with the first
    value.
- **Coercer** (`setWithProperType`, `unmarshalField*`, `set*Field`). A
  `BindUnmarshaler` or `encoding.TextUnmarshaler` decodes the string itself.
  A nil pointer is allocated before its target is coerced. Integers,
  unsigned integers, booleans and floats are parsed by `strconv`, and the
  empty string reads as the zero value. Strings are stored verbatim. Any
  other kind is an "unknown type" error.

The modules follow these layers:

- `Wrappers`: `Option` and `Result`.
- `Strconv`: the parts of Go's `strconv` the coercer calls, with parse/format
  round trips.
- `Reflection`: types, values, struct tags, zero values and the
  value-has-type invariant that Go's type system provides.
- `Params`: `url.Values` and the key lookup used by the walker.
- `Coerce`: the coercer.
- `Walker` and `WalkerFacts`: the field walker and its properties.
- `Dispatch`: the entry points, their properties, and the PUT example where
  the query overrides a JSON body.

Go mutates the destination in place, and a failing bind can leave earlier
fields already written. Every walker and coercer result is therefore an
`Outcome(value, err)`: the destination as it stands after the call, plus the
error, if any. Two situations make the Go code panic, and both are modelled
as `BindError.Panic`:

- assigning into a nil map destination;
- a tagged embedded pointer to a non-struct whose key is present. The walker
  hands the pointer's target, which is not a pointer, to `unmarshalFieldPtr`.
  That function panics on it in `IsNil`, in `Type().Elem()` for a nil
  function target, in `Set` for a nil slice, map or channel target
  (bind.go:257), or in `Elem` for a non-nil one (bind.go:259).

Two consequences of the code are easy to miss:

- A tagged embedded struct is an error only when the parameter map is
  non-empty, because `bindData` returns early on empty data (bind.go:93-95).
  It is also an error only when no earlier field failed first.
  `WalkerFacts.TaggedEmbeddedStructFails` therefore requires non-empty data.
- The case-insensitive fallback takes the first matching key in Go's map
  iteration order, which is unspecified. The model fixes that order as the
  sequence order of the entries. `Params.LookupOrderIndependent` shows that
  the order matters only when the exact key is absent and several keys match
  up to case.
- The walk follows embedded pointers without remembering where it has been.
  A struct that embeds a pointer to its own type, set to point back at
  itself (`type T struct{ *T; X int }` with `t.T = &t`), makes `bindData`
  recurse through bind.go:119-121 and bind.go:137-138 forever on any
  non-empty data, until Go's stack overflows. The model cannot express such
  a value (see "## Left out"), so its walk always terminates.

## Model

| member | source | states |
|---|---|---|
| Strconv.ParseUint | bind.go:277 | base-10 ParseUint succeeds exactly on a non-empty all-digit string whose value fits the bit size, and returns that value; a failure names ParseUint and the input |
| Strconv.ParseInt | bind.go:266 | a successful ParseInt result lies in the signed range of the bit size; a failure names ParseInt and the input |
| Strconv.ParseBool | bind.go:288 | ParseBool succeeds exactly on the six true and six false spellings, returns true exactly for the true ones, and any failure is a syntax error naming ParseBool and the input |
| Strconv.ParseUintRoundTrip | bind.go:277-279 | parsing the decimal spelling of any unsigned value in range gives that value back |
| Strconv.ParseIntRoundTrip | bind.go:266-268 | parsing the decimal spelling of any signed value in range gives that value back |
| Strconv.ParseIntCharacterised | bind.go:266-270 | for the bit sizes the binder uses, ParseInt succeeds exactly on an optionally signed decimal whose value is in range, and returns that value |
| Strconv.ParseBoolRoundTrip | bind.go:288-290 | parsing FormatBool(b) gives b |
| Strconv.ScanDigitsCorrect | bind.go:277 | the digit scanner accepts exactly the all-digit strings whose value is within the maximum, and computes that value |
| Reflection.BitSize | bind.go:199-218 | every integer width passes a bit size of at most 64 whose effective size is at least 8 |
| Reflection.TagGet | bind.go:128 | the tag name is the value stored under the source's tag key, and a missing key reads as "" |
| Reflection.Zero | bind.go:257 | the freshly allocated zero value has the pointee's type |
| Params.FindFirst | bind.go:151-157 | the case-insensitive scan returns the first entry whose key satisfies the test, and returns none exactly when no key does |
| Params.LookupExact | bind.go:146 | when the exact key is present, its values are used |
| Params.LookupFallback | bind.go:147-158 | without the exact key, a value list is found exactly when some key matches up to case, and it belongs to the first such key |
| Params.Lookup | bind.go:146-158 | nothing is found exactly when no key matches the tag name up to case; otherwise the values come from a key that matches |
| Params.LookupOrderIndependent | bind.go:151-157 | two orderings of the same entries give the same lookup when the exact key is present or at most one key matches up to case |
| Coerce.UnmarshalFieldNonPtr | bind.go:242-252 | the string is handled exactly when the type has a BindUnmarshaler or TextUnmarshaler; then the decoder's value and error are the outcome, and otherwise the field is untouched |
| Coerce.UnmarshalFieldPtr | bind.go:254-260 | the pointer is non-nil afterwards; an existing target is kept when the pointee has no decoder, and a nil pointer gets the pointee's zero value |
| Coerce.UnmarshalField | bind.go:233-240 | a decoder handles the string exactly when the type, or the pointee for a pointer, has one; otherwise the value keeps its type and non-pointers are unchanged |
| Coerce.SetIntField | bind.go:262-271 | "" stores 0; the field is set exactly when the text (with "" read as "0") is an optionally signed decimal within the width's range, and then holds its value; a failure keeps the old value and reports a ParseInt error |
| Coerce.SetUintField | bind.go:273-282 | "" stores 0; the field is set exactly when the text (with "" read as "0") is a decimal within the width's range, and then holds its value; a failure keeps the old value and reports a ParseUint error |
| Coerce.SetBoolField | bind.go:284-293 | "" stores false; the field is set exactly when the text is one of the twelve ParseBool spellings, and then holds true exactly for the true ones; a failure keeps the old value and reports ParseBool's syntax error |
| Coerce.SetFloatField | bind.go:295-304 | "" is parsed as "0.0"; success happens exactly when ParseFloat accepts the text, and stores the float it returns; a failure keeps the old value and reports a ParseFloat error |
| Coerce.SetWithProperType | bind.go:190-231 | every error is a custom decoder's, a strconv failure or "unknown type"; a plain string field stores the text verbatim; a kind outside the switch, without a decoder, is an "unknown type" error that leaves the value alone |
| Coerce.SetWithProperTypeKeepsType | bind.go:190-231 | coercing into a field leaves a value of the field's type, through any depth of pointers, when custom decoders keep types |
| Coerce.EmptyStringIsZero | bind.go:262-293 | the empty string sets an int, uint or bool field to its zero value without error |
| Coerce.FailedParseKeepsValue | bind.go:262-293 | a failed scalar parse leaves the field unchanged and reports a conversion error |
| Coerce.ScalarRoundTrip | bind.go:199-220 | coercing the decimal spelling of an in-range integer, unsigned value or boolean stores exactly that value |
| Coerce.IntFieldMeaning | bind.go:262-271 | a signed field is set only from an optionally signed decimal, and holds the value that decimal denotes |
| Coerce.PointerAllocatedOnDemand | bind.go:254-258 | a nil pointer without a decoder is allocated and its zero target coerced; the allocation stays even when the coercion fails |
| Coerce.CustomDecoderFirst | bind.go:190-194 | a custom decoder on the type or the pointee decides the outcome alone, and its error is returned unchanged |
| Walker.CopyFirst | bind.go:100-105 | the map gains every parameter key mapped to that key's first value; other entries are kept |
| Walker.BuildSlice | bind.go:172-181 | the slice is built exactly when every element coerces, and element j is the coercion of value j |
| Walker.Collect | bind.go:172-181 | element outcomes are collected exactly when none failed, keeping each outcome's value in order |
| Walker.CollectFirstFailure | bind.go:176-179 | a collection that stops reports the error of the first failing outcome, all earlier ones having succeeded |
| Walker.BuildSliceFirstFailure | bind.go:176-179 | a slice that is not built reports the error of its first failing element |
| Walker.BindInto | bind.go:92-115 | empty data is a no-op; "must be a struct" is reported exactly for non-empty data, a destination that is neither map nor struct, and a source other than the query; such a destination is left alone; a struct keeps its field count |
| Walker.BindFields | bind.go:116-186 | the field loop keeps the struct's field count and never reports "must be a struct" |
| Walker.BindField | bind.go:117-126 | an unexported field is left alone; an embedded pointer is neither allocated nor cleared; the step never reports "must be a struct" |
| Walker.BindSettable | bind.go:127-162 | an untagged field that is not a searchable struct is left alone; through an embedded pointer only an untagged struct can change; the step never reports "must be a struct" |
| Walker.BindValues | bind.go:164-185 | every error is a custom decoder's, a strconv failure or "unknown type"; a slice field without a decoder that succeeds gets one element per value |
| Walker.BindData | bind.go:92-97 | a nil destination or an empty map is a no-op; the destination's type is kept |
| WalkerFacts.MapDestinationCopiesFirstValues | bind.go:100-105 | a non-nil map destination succeeds, gains every key mapped to its first value, and keeps its other entries |
| WalkerFacts.NonStructDestination | bind.go:108-114 | a destination that is neither map nor struct is unchanged; this succeeds for the query source and is a "must be a struct" error otherwise |
| WalkerFacts.BindFieldsKeepsPrefix | bind.go:116-186 | the field loop never changes fields before its start |
| WalkerFacts.BindFieldsSuccess | bind.go:116-187 | when the walk succeeds, every field holds the successful outcome of its own step |
| WalkerFacts.BindFieldsFailure | bind.go:116-186 | when the walk fails, some field k failed with that error and holds what its step left, every earlier field succeeded and holds its result, and every later field is untouched |
| WalkerFacts.TaggedEmbeddedStructFails | bind.go:129-132 | a struct with a tagged embedded struct field fails to bind from any non-empty data |
| WalkerFacts.TaggedEmbeddedStructError | bind.go:129-132 | a tagged embedded struct field reports the anonymous-struct tag error |
| WalkerFacts.AbsentKeyLeavesField | bind.go:146-162 | a tagged field whose name matches no key, even up to case, is left unchanged without error |
| WalkerFacts.ExactKeyBindsField | bind.go:146 | a tagged field whose exact key is present is bound from that key's values, even if other keys match up to case |
| WalkerFacts.FoldedKeyBindsField | bind.go:147-158 | without the exact key, a tagged field is bound from the first key that matches up to case |
| WalkerFacts.UntaggedField | bind.go:134-144 | an untagged field is searched recursively if it is a struct that is not a BindUnmarshaler, and is left unchanged otherwise |
| WalkerFacts.SliceFieldElementwise | bind.go:172-181 | a slice field gets one element per value, in order; if any element fails, the field keeps its old value and the first failure's error is returned |
| WalkerFacts.CustomDecoderPreempts | bind.go:164-170 | a field with a custom decoder is decoded from the first value alone, before the slice and scalar paths |
| WalkerFacts.ScalarFieldUsesFirstValue | bind.go:182-185 | a field that is neither a slice nor custom-decoded depends only on the first value, and is coerced from it |
| WalkerFacts.BindValuesKeepsType | bind.go:164-185 | binding the found values keeps the field's type |
| WalkerFacts.BindIntoKeepsType | bind.go:92-188 | bindData leaves the destination holding a value of its type, through nested and embedded structs |
| WalkerFacts.BindFieldsKeepsType | bind.go:116-186 | the field loop keeps every field within its declared type |
| WalkerFacts.BindFieldKeepsType | bind.go:117-126 | one loop step, embedded pointers included, keeps the field's type |
| WalkerFacts.BindSettableKeepsType | bind.go:127-185 | the settable-field step keeps the field's type |
| Dispatch.WrapBindError | bind.go:72-74 | a walker error is wrapped exactly when there is one |
| Dispatch.BindBody | bind.go:30-33 | an empty body leaves the destination unchanged without error |
| Dispatch.BindQueryParams | bind.go:71-76 | every error is a 400 Bad Request caused by the walker |
| Dispatch.QueryParamsWalked | bind.go:71-76 | the query is walked under the query tag into the destination; a walker error is reported exactly when there is one, as a 400 caused by it |
| Dispatch.BindQueryParamsKeepsTarget | bind.go:71-76 | the query step keeps the destination's type when the decoders do |
| Dispatch.Bind | bind.go:81-89 | the destination keeps its type through both steps; without a body method every error is a 400 from the walker |
| Dispatch.BindBodyKeepsTarget | bind.go:30-68 | the body step keeps the destination's type when the decoders do |
| Dispatch.UnknownContentTypeRefused | bind.go:64-65 | a non-empty body with an unknown Content-Type is refused with 415, and nothing is decoded |
| Dispatch.PrefixesExclusive | bind.go:36-56 | the JSON, XML and form Content-Type prefixes exclude each other, so an XML or form type never matches an earlier case |
| Dispatch.JsonBodyDecoded | bind.go:37-46 | a JSON body goes to the JSON decoder alone; an HTTPError from it is returned as is, and any other error is a 400 caused by it, never a walker conversion error |
| Dispatch.XmlBodyDecoded | bind.go:47-55 | an XML body goes to the XML decoder alone; every error is a 400 caused by it, with the type or line in the message for unsupported-type and syntax errors |
| Dispatch.FormBodyWalked | bind.go:56-63 | a form body is walked under the form tag; a parse or walker error is a 400 caused by it |
| Dispatch.BodyIgnoredWithoutBodyMethod | bind.go:81-88 | for a method other than POST, PUT or PATCH, Bind is the query step alone and does not depend on the body |
| Dispatch.BodyFailureStopsBind | bind.go:84-86 | a failing body step is Bind's result, and the query is not bound |
| Dispatch.QueryOverridesBody | bind.go:78-89 | after a successful Bind, a string field tagged with a present query key holds that key's first query value, whatever the body did |
| Dispatch.PutRequestBody | bind.go:37-46 | the example PUT's JSON body step writes Status "pending" without error |
| Dispatch.PutRequestQuery | bind.go:71-76 | the example's query step turns Status "pending" into "done" without error |
| Dispatch.PutRequestOverride | bind.go:78-89 | a PUT whose JSON body sets Status to "pending", with query ?status=done, ends with Status "done" and no error |

## Left out

- JSON and XML decoding are given as functions on the request from a destination to its decoded destination and error. The decoders themselves are Go's standard library.
- Form parsing (`Request.FormParams`, request.go:89-100) is given by its outcome, a `Result` field of the request. Multipart parsing, the memory limit, and the merging of URL and body values by `ParseForm` are not modelled.
- Float parsing (`strconv.ParseFloat`) is a function parameter of the environment, because floating point is not modelled. Float values are their bit patterns.
- Custom decoders (`UnmarshalParam`, `UnmarshalText`) are a function parameter of the environment. Their error is an opaque message.
- `strings.EqualFold` is modelled for ASCII only; Unicode simple case folding is not modelled.
- Go's random map iteration order is replaced by the sequence order of the parameter entries.
- `int` and `uint` are 64 bits wide, as on the usual targets.
- Strconv.ParseInt: the contract gives only the range of a success; the meaning of a success is stated by `Strconv.ParseIntCharacterised` for bit sizes of at least 2, which covers every bit size the binder passes.
- `strconv` belongs to Go's standard library; its base-10 behaviour is modelled as documented: digits only for ParseUint, an optional sign for ParseInt, the fixed spellings for ParseBool, and range errors. Underscores and other bases are not used by the binder.
- The destination is a pointer to a typed value or nil. Two other kinds of destination are not modelled:
  - A non-pointer destination: with empty data it returns nil (bind.go:93-95); otherwise `Elem` panics at bind.go:96-97.
  - A typed nil pointer: with empty data it returns nil (bind.go:93-95). Otherwise, a pointee that is neither a map nor a struct behaves as for a non-nil pointer: nil for the query source, "binding element must be a struct" for the others (bind.go:108-113). A nil map panics in `SetMapIndex` (bind.go:102), and a struct with at least one field panics in `val.Field` (bind.go:118).
- Values are finite trees: a pointer owns its pointee. Several pointers sharing one pointee, recursive types (`type Node struct{ Next *Node }`) and pointer cycles are not modelled. With sharing, Go's write through one pointer (bind.go:120-121, bind.go:257) is visible through the others, while in the model it changes only the pointee that pointer owns. `Walker.BindInto` terminates because a `Reflection.Type` is finite, and that is why the cycle above cannot arise.
- Map destinations are modelled as `map[string]string`. `map[string]any` (an empty-interface element type) behaves the same. Any other element type, including a non-empty interface or a named string type, makes `SetMapIndex` panic, because a `string` is not assignable to it.
- Kinds other than those listed in `Reflection.Kind` (arrays, channels, functions, interfaces, complex numbers) fall under `Other`; coercing into them is the "unknown type" error.
- Error messages are symbolic (`Message`, `BindError`) rather than formatted strings.
- The MIME type and header-name constants are defined elsewhere in the package; their standard values are used.
- The response helpers, the hijack/flush passthroughs and the request accessors in responder.go, httpx.go and request.go are not part of the binder. Of error.go, only the HTTPError code, message and cause are modelled.

=== FILE: coerce.dfy ===
/** The coercer of bind.go: custom decoders first (unmarshalField and its
    pointer and non-pointer variants), then the kind switch of
    setWithProperType with the integer, unsigned, boolean and float setters.
    Every result is the field's value afterwards together with the error,
    because Go mutates the field in place and does not roll back. */
module Coerce {
  import opened Wrappers
  import opened Strconv
  import opened Reflection

  /** Situations in which the Go code panics inside reflection. */
  datatype PanicReason =
      /** SetMapIndex on a nil map destination. */
    | NilMapAssignment
      /** unmarshalFieldPtr given the (non-pointer) target of a tagged embedded
          pointer to a non-struct type: IsNil, Type().Elem(), Set or Elem panics on it. */
    | EmbeddedPointerToNonStruct

  datatype BindError =
      /** "binding element must be a struct" */
    | NotAStruct
      /** "query/form tags are not allowed with anonymous struct field" */
    | TaggedAnonymousStruct
      /** "unknown type" */
    | UnknownType
      /** A strconv failure, returned as is. */
    | Conversion(num: NumError)
      /** The error of a custom decoder, returned as is. */
    | Custom(message: string)
    | Panic(reason: PanicReason)

  /** The value after an operation, and its error if any. */
  datatype Outcome<T> = Outcome(value: T, err: Option<BindError>)

  /** What a custom decoder leaves in its receiver, and its error. */
  datatype Decoded = Decoded(value: Value, err: Option<string>)

  /** Code the binder calls but that is not part of it: the decoding methods
      of user types (UnmarshalParam / UnmarshalText, given the receiver's type,
      the parameter and the receiver's current value) and strconv.ParseFloat
      (giving a bit pattern). */
  datatype Env = Env(decode: (Type, string, Value) -> Decoded, parseFloat: (string, nat) -> Result<nat, NumReason>)

  /** The custom decoders leave a value of their receiver's type. */
  ghost predicate DecodersKeepTypes(env: Env)
  {
    forall t, s, v :: HasType(v, t) ==> HasType(env.decode(t, s, v).value, t)
  }

  /** The result of unmarshalField: whether a custom decoder handled the
      string, the field's value afterwards, and the decoder's error. */
  datatype Unmarshaled = Unmarshaled(handled: bool, value: Value, err: Option<BindError>)

  function CustomError(e: Option<string>): (r: Option<BindError>)
    ensures r.None? <==> e.None?
    ensures e.Some? ==> r == Some(Custom(e.value))
  {
    match e
    case None => None
    case Some(m) => Some(Custom(m))
  }

  /** The type whose decoder unmarshalField consults: the pointee for a
      pointer, the type itself otherwise. */
  function DecoderOwner(t: Type): Type
  {
    match t.kind
    case Ptr(e) => e
    case _ => t
  }

  /** unmarshalFieldNonPtr: a type implementing BindUnmarshaler or
      TextUnmarshaler decodes the string itself. */
  function UnmarshalFieldNonPtr(env: Env, t: Type, s: string, v: Value): (r: Unmarshaled)
    ensures r.handled <==> !t.unmarshaler.NoUnmarshaler?
    ensures r.handled ==> r.value == env.decode(t, s, v).value && r.err == CustomError(env.decode(t, s, v).err)
    ensures !r.handled ==> r.value == v && r.err.None?
  {
    match t.unmarshaler
    case NoUnmarshaler => Unmarshaled(false, v, None)
    case _ =>
      var d := env.decode(t, s, v);
      Unmarshaled(true, d.value, CustomError(d.err))
  }

  /** unmarshalFieldPtr: a nil pointer is first set to a fresh zero value,
      which stays even when the pointee has no decoder. */
  function UnmarshalFieldPtr(env: Env, e: Type, s: string, v: Value): (r: Unmarshaled)
    requires HasType(v, Type(Ptr(e), NoUnmarshaler))
    ensures r.value.PtrV? && r.value.target.Some?
    ensures !r.handled ==> r.err.None? && HasType(r.value.target.value, e)
    ensures !r.handled && v.target.Some? ==> r.value == v
    ensures !r.handled && v.target.None? ==> r.value.target.value == Zero(e)
  {
    var target := if v.target.None? then Zero(e) else v.target.value;
    var u := UnmarshalFieldNonPtr(env, e, s, target);
    Unmarshaled(u.handled, PtrV(Some(u.value)), u.err)
  }

  /** unmarshalField: dispatch on whether the kind is a pointer. */
  function UnmarshalField(env: Env, t: Type, s: string, v: Value): (r: Unmarshaled)
    requires HasType(v, t)
    ensures r.handled <==> !DecoderOwner(t).unmarshaler.NoUnmarshaler?
    ensures !r.handled ==> r.err.None? && HasType(r.value, t)
    ensures !r.handled && !t.kind.Ptr? ==> r.value == v
    ensures !r.handled && t.kind.Ptr? ==> r.value.PtrV? && r.value.target.Some?
  {
    match t.kind
    case Ptr(e) => UnmarshalFieldPtr(env, e, s, v)
    case _ => UnmarshalFieldNonPtr(env, t, s, v)
  }

  /** setIntField: the empty string reads as "0"; on failure the field
      keeps its value. */
  function SetIntField(s: string, w: Width, v: Value): (r: Outcome<Value>)
    ensures s == "" ==> r == Outcome(IntV(0), None)
    ensures r.err.Some? ==> r.value == v && r.err.value.Conversion? && r.err.value.num.func == ParseIntFn
    ensures r.err.None? ==> r.value.IntV? && IntMin(BitSize(w)) <= r.value.i <= IntMax(BitSize(w))
    ensures var text := if s == "" then "0" else s;
      && (r.err.None? <==> IsSignedDecimal(text) && IntMin(BitSize(w)) <= SignedDecimalValue(text) <= IntMax(BitSize(w)))
      && (r.err.None? ==> r.value == IntV(SignedDecimalValue(text)))
  {
    var text := if s == "" then "0" else s;
    ParseIntCharacterised(text, BitSize(w));
    assert s == "" ==> ParseInt(text, BitSize(w)) == Success(0) by {
      if s == "" {
        assert text[0] == '0';
        assert text == FormatInt(0);
        ParseIntRoundTrip(0, BitSize(w));
      }
    }
    match ParseInt(text, BitSize(w))
    case Success(n) => Outcome(IntV(n), None)
    case Failure(e) => Outcome(v, Some(Conversion(e)))
  }

  /** setUintField: as setIntField, for unsigned integers. */
  function SetUintField(s: string, w: Width, v: Value): (r: Outcome<Value>)
    ensures s == "" ==> r == Outcome(UintV(0), None)
    ensures r.err.Some? ==> r.value == v && r.err.value.Conversion? && r.err.value.num.func == ParseUintFn
    ensures r.err.None? ==> r.value.UintV? && r.value.u <= UintMax(BitSize(w))
    ensures var text := if s == "" then "0" else s;
      && (r.err.None? <==> IsDecimal(text) && DecimalValue(text) <= UintMax(BitSize(w)))
      && (r.err.None? ==> r.value == UintV(DecimalValue(text)))
  {
    var text := if s == "" then "0" else s;
    assert s == "" ==> ParseUint(text, BitSize(w)) == Success(0) by {
      if s == "" {
        assert text == FormatUint(0);
        ParseUintRoundTrip(0, BitSize(w));
      }
    }
    match ParseUint(text, BitSize(w))
    case Success(n) => Outcome(UintV(n), None)
    case Failure(e) => Outcome(v, Some(Conversion(e)))
  }

  /** setBoolField: the empty string reads as "false". */
  function SetBoolField(s: string, v: Value): (r: Outcome<Value>)
    ensures s == "" ==> r == Outcome(BoolV(false), None)
    ensures r.err.Some? ==> r.value == v && r.err == Some(Conversion(NumError(ParseBoolFn, s, Syntax)))
    ensures var text := if s == "" then "false" else s;
      && (r.err.None? <==> text in {"1", "t", "T", "TRUE", "true", "True", "0", "f", "F", "FALSE", "false", "False"})
      && (r.err.None? ==> r.value == BoolV(text in {"1", "t", "T", "TRUE", "true", "True"}))
  {
    var text := if s == "" then "false" else s;
    match ParseBool(text)
    case Success(b) => Outcome(BoolV(b), None)
    case Failure(e) => Outcome(v, Some(Conversion(e)))
  }

  /** setFloatField: the empty string reads as "0.0"; parsing itself is
      the float oracle. */
  function SetFloatField(env: Env, s: string, bitSize: nat, v: Value): (r: Outcome<Value>)
    ensures s == "" ==> (r.err.None? <==> env.parseFloat("0.0", bitSize).Success?)
    ensures r.err.Some? ==> r.value == v && r.err.value.Conversion? && r.err.value.num.func == ParseFloatFn
    ensures r.err.None? ==> r.value.FloatV?
    ensures var text := if s == "" then "0.0" else s;
      && (r.err.None? <==> env.parseFloat(text, bitSize).Success?)
      && (r.err.None? ==> r.value == FloatV(env.parseFloat(text, bitSize).value))
  {
    var text := if s == "" then "0.0" else s;
    match env.parseFloat(text, bitSize)
    case Success(bits) => Outcome(FloatV(bits), None)
    case Failure(reason) => Outcome(v, Some(Conversion(NumError(ParseFloatFn, text, reason))))
  }

  /** The errors a coercion can report: a custom decoder's, a strconv
      failure, or "unknown type". */
  predicate IsCoercionError(e: BindError)
  {
    e.Custom? || e.Conversion? || e.UnknownType?
  }

  /** The kinds setWithProperType's switch handles. */
  predicate IsSettableKind(k: Kind)
  {
    k.Ptr? || k.Int? || k.Uint? || k.Bool? || k.Float32? || k.Float64? || k.String?
  }

  /** setWithProperType: a custom decoder first; otherwise pointers are
      followed (allocated if nil), scalars are parsed, strings are stored
      verbatim, and any other kind is an "unknown type" error. */
  function SetWithProperType(env: Env, t: Type, s: string, v: Value): (r: Outcome<Value>)
    requires HasType(v, t)
    ensures r.err.Some? ==> IsCoercionError(r.err.value)
    ensures t == Type(String, NoUnmarshaler) ==> r == Outcome(StringV(s), None)
    ensures t.unmarshaler.NoUnmarshaler? && !IsSettableKind(t.kind) ==> r == Outcome(v, Some(UnknownType))
    decreases t
  {
    var u := UnmarshalField(env, t, s, v);
    if u.handled then Outcome(u.value, u.err)
    else match t.kind
      case Ptr(e) =>
        var inner := SetWithProperType(env, e, s, u.value.target.value);
        Outcome(PtrV(Some(inner.value)), inner.err)
      case Int(w) => SetIntField(s, w, u.value)
      case Uint(w) => SetUintField(s, w, u.value)
      case Bool => SetBoolField(s, u.value)
      case Float32 => SetFloatField(env, s, 32, u.value)
      case Float64 => SetFloatField(env, s, 64, u.value)
      case String => Outcome(StringV(s), None)
      case _ => Outcome(u.value, Some(UnknownType))
  }

  // ---------------------------------------------------------------------
  // Properties of the coercer

  /** The kinds setWithProperType parses itself (no custom decoder). */
  predicate IsParsedScalar(t: Type)
  {
    t.unmarshaler.NoUnmarshaler? && (t.kind.Int? || t.kind.Uint? || t.kind.Bool?)
  }

  /** A coercion leaves a value of the field's type when the custom
      decoders do. */
  lemma {:induction false} SetWithProperTypeKeepsType(env: Env, t: Type, s: string, v: Value)
    requires DecodersKeepTypes(env) && HasType(v, t)
    ensures HasType(SetWithProperType(env, t, s, v).value, t)
    decreases t
  {
    var u := UnmarshalField(env, t, s, v);
    if u.handled {
      match t.kind
      case Ptr(e) =>
        var target := if v.target.None? then Zero(e) else v.target.value;
        assert HasType(env.decode(e, s, target).value, e);
      case _ =>
        assert HasType(env.decode(t, s, v).value, t);
    } else if t.kind.Ptr? {
      SetWithProperTypeKeepsType(env, t.kind.elem, s, u.value.target.value);
    }
  }

  /** The empty string sets an integer, unsigned or boolean field to its
      zero value (0, 0, false), never an error. */
  lemma EmptyStringIsZero(env: Env, t: Type, v: Value)
    requires IsParsedScalar(t) && HasType(v, t)
    ensures SetWithProperType(env, t, "", v) == Outcome(Zero(t), None)
  {
  }

  /** A failed parse leaves the field as it was and reports a strconv
      error. */
  lemma FailedParseKeepsValue(env: Env, t: Type, s: string, v: Value)
    requires IsParsedScalar(t) && HasType(v, t)
    ensures var r := SetWithProperType(env, t, s, v);
      r.err.Some? ==> r.value == v && r.err.value.Conversion?
  {
  }

  /** Binding the decimal spelling of an in-range integer stores exactly
      that integer; likewise for unsigned integers and booleans. */
  lemma ScalarRoundTrip(env: Env, t: Type, n: int, b: bool, v: Value)
    requires IsParsedScalar(t) && HasType(v, t)
    ensures t.kind.Int? && IntMin(BitSize(t.kind.iw)) <= n <= IntMax(BitSize(t.kind.iw)) ==>
      SetWithProperType(env, t, FormatInt(n), v) == Outcome(IntV(n), None)
    ensures t.kind.Uint? && 0 <= n <= UintMax(BitSize(t.kind.uw)) ==>
      SetWithProperType(env, t, FormatUint(n), v) == Outcome(UintV(n), None)
    ensures t.kind.Bool? ==> SetWithProperType(env, t, FormatBool(b), v) == Outcome(BoolV(b), None)
  {
    match t.kind {
      case Int(w) =>
        if IntMin(BitSize(w)) <= n <= IntMax(BitSize(w)) {
          ParseIntRoundTrip(n, BitSize(w));
          assert FormatInt(n) != "" by { assert IsDecimal(FormatUint(if n < 0 then -n else n)); }
        }
      case Uint(w) =>
        if 0 <= n <= UintMax(BitSize(w)) {
          ParseUintRoundTrip(n, BitSize(w));
          assert IsDecimal(FormatUint(n));
        }
      case Bool =>
        ParseBoolRoundTrip(b);
    }
  }

  /** A signed field is set only from a signed decimal that denotes the
      stored value. */
  lemma IntFieldMeaning(env: Env, t: Type, s: string, v: Value)
    requires t.unmarshaler.NoUnmarshaler? && t.kind.Int? && HasType(v, t)
    ensures var r := SetWithProperType(env, t, s, v);
      r.err.None? ==> var text := if s == "" then "0" else s;
        IsSignedDecimal(text) && r.value == IntV(SignedDecimalValue(text))
  {
    var text := if s == "" then "0" else s;
    ParseIntCharacterised(text, BitSize(t.kind.iw));
  }

  /** A nil pointer field without a custom decoder is allocated and its
      zero target coerced; the allocation stays even when that fails. */
  lemma PointerAllocatedOnDemand(env: Env, e: Type, s: string)
    requires e.unmarshaler.NoUnmarshaler?
    ensures var inner := SetWithProperType(env, e, s, Zero(e));
      SetWithProperType(env, Type(Ptr(e), NoUnmarshaler), s, PtrV(None)) == Outcome(PtrV(Some(inner.value)), inner.err)
  {
  }

  /** A custom decoder, when the (pointee) type has one, decides the
      outcome alone; its error is returned unchanged. */
  lemma CustomDecoderFirst(env: Env, t: Type, s: string, v: Value)
    requires HasType(v, t) && !DecoderOwner(t).unmarshaler.NoUnmarshaler?
    ensures var r := SetWithProperType(env, t, s, v);
      if t.kind.Ptr? then
        var target := if v.target.None? then Zero(t.kind.elem) else v.target.value;
        var d := env.decode(t.kind.elem, s, target);
        r == Outcome(PtrV(Some(d.value)), CustomError(d.err))
      else
        var d := env.decode(t, s, v);
        r == Outcome(d.value, CustomError(d.err))
  {
  }
}

=== FILE: dispatch.dfy ===
/** The request-level entry points of bind.go: BindBody chooses a decoding
    strategy from the Content-Type prefix, BindQueryParams walks the query
    parameters, and Bind runs the body step for POST, PUT and PATCH and then,
    unless that step fails, the query step, so that query values override
    body values. */
module Dispatch {
  import opened Wrappers
  import opened Reflection
  import opened Params
  import opened Coerce
  import opened Walker
  import opened WalkerFacts

  const StatusBadRequest: int := 400
  const StatusUnsupportedMediaType: int := 415

  const MIMEApplicationJSON: string := "application/json"
  const MIMEApplicationXML: string := "application/xml"
  const MIMETextXML: string := "text/xml"
  const MIMEApplicationForm: string := "application/x-www-form-urlencoded"
  const MIMEMultipartForm: string := "multipart/form-data"

  /** The message of an HTTPError: the status text, the wrapped error's own
      text, or one of the two XML messages that add the offending type name
      or line number. */
  datatype Message =
    | StatusText
    | ErrorText
    | XmlUnsupportedTypeText(typeName: string, detail: string)
    | XmlSyntaxText(line: int, detail: string)

  /** HTTPError: a status code, a message and the wrapped error. */
  datatype HttpError = HttpError(code: int, message: Message, cause: Option<Cause>)

  datatype Cause =
    | BindCause(bind: BindError)
    | BodyCause(body: BodyError)
    | FormCause(form: string)

  /** The errors a structured body decoder can return, as far as BindBody
      tells them apart. */
  datatype BodyError =
    | BodyHttp(http: HttpError)
    | XmlUnsupportedType(typeName: string, detail: string)
    | XmlSyntax(line: int, detail: string)
    | BodyOther(detail: string)

  /** What decoding the body left in the destination, and its error. */
  datatype BodyDecoded = BodyDecoded(dest: Dest, err: Option<BodyError>)

  /** The parts of a request the binder reads. The JSON and XML decoders and
      the form parser work on the body and are given by their outcome; the
      query parameters are already parsed. */
  datatype Request = Request(
    httpMethod: string,
    contentLength: int,
    contentType: string,
    json: Dest -> BodyDecoded,
    xml: Dest -> BodyDecoded,
    form: Result<Values, string>,
    query: Values)

  /** The destination after a bind step, and its error. */
  datatype Bound = Bound(dest: Dest, err: Option<HttpError>)

  predicate HasPrefix(s: string, prefix: string)
  {
    |prefix| <= |s| && s[..|prefix|] == prefix
  }

  /** ErrUnsupportedMediaType. */
  const UnsupportedMediaType: HttpError := HttpError(StatusUnsupportedMediaType, StatusText, None)

  /** WrapHTTPError(err, http.StatusBadRequest, err.Error()). */
  function BadRequest(c: Cause): HttpError
  {
    HttpError(StatusBadRequest, ErrorText, Some(c))
  }

  predicate WellFormedRequest(req: Request)
  {
    WellFormed(req.query) && (req.form.Success? ==> WellFormed(req.form.value))
  }

  /** The body decoders keep the destination's type, as Go's decoders do. */
  ghost predicate BodyDecodersKeepTarget(req: Request)
  {
    forall d :: WellTyped(d) ==> SameTarget(d, req.json(d).dest) && SameTarget(d, req.xml(d).dest)
  }

  function JsonError(e: BodyError): HttpError
  {
    match e
    case BodyHttp(h) => h
    case _ => BadRequest(BodyCause(e))
  }

  function XmlError(e: BodyError): HttpError
  {
    match e
    case XmlUnsupportedType(typeName, detail) =>
      HttpError(StatusBadRequest, XmlUnsupportedTypeText(typeName, detail), Some(BodyCause(e)))
    case XmlSyntax(line, detail) =>
      HttpError(StatusBadRequest, XmlSyntaxText(line, detail), Some(BodyCause(e)))
    case _ => BadRequest(BodyCause(e))
  }

  function WrapBindError(e: Option<BindError>): (r: Option<HttpError>)
    ensures r.None? <==> e.None?
  {
    match e
    case None => None
    case Some(b) => Some(BadRequest(BindCause(b)))
  }

  /** BindBody: an empty body is a no-op; otherwise the first matching
      prefix of the Content-Type picks JSON, XML or form decoding, and any
      other type is unsupported. */
  function BindBody(env: Env, req: Request, dest: Dest): (r: Bound)
    requires WellFormedRequest(req) && WellTyped(dest)
    ensures req.contentLength == 0 ==> r == Bound(dest, None)
  {
    var ct := req.contentType;
    if req.contentLength == 0 then Bound(dest, None)
    else if HasPrefix(ct, MIMEApplicationJSON) then
      var d := req.json(dest);
      Bound(d.dest, if d.err.Some? then Some(JsonError(d.err.value)) else None)
    else if HasPrefix(ct, MIMEApplicationXML) || HasPrefix(ct, MIMETextXML) then
      var d := req.xml(dest);
      Bound(d.dest, if d.err.Some? then Some(XmlError(d.err.value)) else None)
    else if HasPrefix(ct, MIMEApplicationForm) || HasPrefix(ct, MIMEMultipartForm) then
      match req.form
      case Failure(e) => Bound(dest, Some(BadRequest(FormCause(e))))
      case Success(params) =>
        var r := BindData(env, dest, params, "form");
        Bound(r.value, WrapBindError(r.err))
    else Bound(dest, Some(UnsupportedMediaType))
  }

  /** BindQueryParams: the walker over the query parameters with the
      "query" tag, its error wrapped as a bad request. */
  function BindQueryParams(env: Env, req: Request, dest: Dest): (r: Bound)
    requires WellFormedRequest(req) && WellTyped(dest)
    ensures r.err.Some? ==> r.err.value.code == StatusBadRequest && r.err.value.cause.Some? && r.err.value.cause.value.BindCause?
  {
    var r := BindData(env, dest, req.query, "query");
    Bound(r.value, WrapBindError(r.err))
  }

  predicate HasBodyMethod(m: string)
  {
    m == "POST" || m == "PUT" || m == "PATCH"
  }

  /** BindBody keeps the destination's type. */
  lemma BindBodyKeepsTarget(env: Env, req: Request, dest: Dest)
    requires DecodersKeepTypes(env) && BodyDecodersKeepTarget(req)
    requires WellFormedRequest(req) && WellTyped(dest)
    ensures SameTarget(dest, BindBody(env, req, dest).dest)
  {
    var ct := req.contentType;
    if req.contentLength != 0 && !HasPrefix(ct, MIMEApplicationJSON)
       && !(HasPrefix(ct, MIMEApplicationXML) || HasPrefix(ct, MIMETextXML))
       && (HasPrefix(ct, MIMEApplicationForm) || HasPrefix(ct, MIMEMultipartForm))
       && req.form.Success? && dest.PtrDest? {
      BindIntoKeepsType(env, dest.typ, dest.value, req.form.value, "form");
    }
  }

  /** BindQueryParams keeps the destination's type. */
  lemma BindQueryParamsKeepsTarget(env: Env, req: Request, dest: Dest)
    requires DecodersKeepTypes(env) && WellFormedRequest(req) && WellTyped(dest)
    ensures SameTarget(dest, BindQueryParams(env, req, dest).dest)
  {
    if dest.PtrDest? {
      BindIntoKeepsType(env, dest.typ, dest.value, req.query, "query");
    }
  }

  /** Bind: the body first, for methods that carry one; the query always
      after it, into the same destination, unless the body step failed. The
      destination keeps its type throughout, and without a body step every
      error is a bad request from the walker. */
  function Bind(env: Env, req: Request, dest: Dest): (r: Bound)
    requires DecodersKeepTypes(env) && BodyDecodersKeepTarget(req)
    requires WellFormedRequest(req) && WellTyped(dest)
    ensures SameTarget(dest, r.dest)
    ensures r.err.Some? && !HasBodyMethod(req.httpMethod) ==>
      r.err.value.code == StatusBadRequest && r.err.value.cause.Some? && r.err.value.cause.value.BindCause?
  {
    if HasBodyMethod(req.httpMethod) then
      var b := BindBody(env, req, dest);
      BindBodyKeepsTarget(env, req, dest);
      if b.err.Some? then b
      else
        BindQueryParamsKeepsTarget(env, req, b.dest);
        BindQueryParams(env, req, b.dest)
    else
      BindQueryParamsKeepsTarget(env, req, dest);
      BindQueryParams(env, req, dest)
  }

  // ---------------------------------------------------------------------
  // Properties of the dispatcher

  /** A non-empty body whose Content-Type has none of the known prefixes is
      refused as an unsupported media type, and nothing is decoded. */
  lemma UnknownContentTypeRefused(env: Env, req: Request, dest: Dest)
    requires WellFormedRequest(req) && WellTyped(dest) && req.contentLength != 0
    requires forall p :: p in {MIMEApplicationJSON, MIMEApplicationXML, MIMETextXML, MIMEApplicationForm, MIMEMultipartForm}
               ==> !HasPrefix(req.contentType, p)
    ensures BindBody(env, req, dest) == Bound(dest, Some(UnsupportedMediaType))
    ensures BindBody(env, req, dest).err.value.code == 415
  {
  }

  /** A JSON body (matched by prefix, so parameters such as a charset are
      allowed) goes to the JSON decoder alone. An HTTPError from it is
      returned unchanged; any other decoding error is a bad request caused by
      that error, never a conversion error of the walker. */
  lemma JsonBodyDecoded(env: Env, req: Request, dest: Dest)
    requires WellFormedRequest(req) && WellTyped(dest) && req.contentLength != 0
    requires HasPrefix(req.contentType, MIMEApplicationJSON)
    ensures var r := BindBody(env, req, dest);
      var d := req.json(dest);
      && r.dest == d.dest
      && (r.err.None? <==> d.err.None?)
      && (d.err.Some? && d.err.value.BodyHttp? ==> r.err == Some(d.err.value.http))
      && (d.err.Some? && !d.err.value.BodyHttp? ==>
            r.err == Some(HttpError(StatusBadRequest, ErrorText, Some(BodyCause(d.err.value)))))
  {
  }

  /** A character of a prefix is that character of the string. */
  lemma PrefixChar(s: string, prefix: string, i: nat)
    requires i < |prefix|
    ensures HasPrefix(s, prefix) ==> s[i] == prefix[i]
  {
    if HasPrefix(s, prefix) {
      assert s[..|prefix|][i] == s[i];
    }
  }

  /** The three families of Content-Type prefixes exclude each other, so
      the order of BindBody's cases only matters within a family. */
  lemma PrefixesExclusive(s: string)
    ensures HasPrefix(s, MIMEApplicationXML) || HasPrefix(s, MIMETextXML) ==> !HasPrefix(s, MIMEApplicationJSON)
    ensures HasPrefix(s, MIMEApplicationForm) || HasPrefix(s, MIMEMultipartForm) ==>
      !HasPrefix(s, MIMEApplicationJSON) && !HasPrefix(s, MIMEApplicationXML) && !HasPrefix(s, MIMETextXML)
  {
    PrefixChar(s, MIMEApplicationJSON, 0);
    PrefixChar(s, MIMEApplicationJSON, 12);
    PrefixChar(s, MIMEApplicationXML, 0);
    PrefixChar(s, MIMEApplicationXML, 13);
    PrefixChar(s, MIMETextXML, 0);
    PrefixChar(s, MIMEApplicationForm, 0);
    PrefixChar(s, MIMEApplicationForm, 12);
    PrefixChar(s, MIMEApplicationForm, 13);
    PrefixChar(s, MIMEMultipartForm, 0);
  }

  /** An XML body goes to the XML decoder alone. Unsupported-type and syntax
      errors get a message naming the type or line; every other error,
      including an HTTPError, becomes a plain bad request. */
  lemma XmlBodyDecoded(env: Env, req: Request, dest: Dest)
    requires WellFormedRequest(req) && WellTyped(dest) && req.contentLength != 0
    requires HasPrefix(req.contentType, MIMEApplicationXML) || HasPrefix(req.contentType, MIMETextXML)
    ensures var r := BindBody(env, req, dest);
      var d := req.xml(dest);
      && r.dest == d.dest
      && (r.err.None? <==> d.err.None?)
      && (r.err.Some? ==> r.err.value.code == StatusBadRequest && r.err.value.cause == Some(BodyCause(d.err.value)))
      && (d.err.Some? && d.err.value.XmlSyntax? ==>
            r.err.value.message == XmlSyntaxText(d.err.value.line, d.err.value.detail))
      && (d.err.Some? && d.err.value.XmlUnsupportedType? ==>
            r.err.value.message == XmlUnsupportedTypeText(d.err.value.typeName, d.err.value.detail))
  {
    PrefixesExclusive(req.contentType);
  }

  /** A form body is bound by the walker with the "form" tag; a parse
      failure or a walker error is a bad request caused by it. */
  lemma FormBodyWalked(env: Env, req: Request, dest: Dest)
    requires WellFormedRequest(req) && WellTyped(dest) && req.contentLength != 0
    requires HasPrefix(req.contentType, MIMEApplicationForm) || HasPrefix(req.contentType, MIMEMultipartForm)
    ensures var r := BindBody(env, req, dest);
      match req.form
      case Failure(e) => r == Bound(dest, Some(HttpError(StatusBadRequest, ErrorText, Some(FormCause(e)))))
      case Success(params) =>
        var w := BindData(env, dest, params, "form");
        && r.dest == w.value
        && (r.err.None? <==> w.err.None?)
        && (w.err.Some? ==> r.err == Some(HttpError(StatusBadRequest, ErrorText, Some(BindCause(w.err.value)))))
  {
    PrefixesExclusive(req.contentType);
  }

  /** The query parameters are bound by the walker with the "query" tag; a
      walker error is a bad request caused by it. */
  lemma QueryParamsWalked(env: Env, req: Request, dest: Dest)
    requires WellFormedRequest(req) && WellTyped(dest)
    ensures var r := BindQueryParams(env, req, dest);
      var w := BindData(env, dest, req.query, "query");
      && r.dest == w.value
      && (r.err.None? <==> w.err.None?)
      && (w.err.Some? ==> r.err == Some(HttpError(StatusBadRequest, ErrorText, Some(BindCause(w.err.value)))))
  {
  }

  /** For a method other than POST, PUT and PATCH the body is never looked
      at: Bind is the query step alone, whatever the body holds. */
  lemma BodyIgnoredWithoutBodyMethod(env: Env, req: Request, req': Request, dest: Dest)
    requires DecodersKeepTypes(env) && BodyDecodersKeepTarget(req) && BodyDecodersKeepTarget(req')
    requires WellFormedRequest(req) && WellFormedRequest(req') && WellTyped(dest)
    requires !HasBodyMethod(req.httpMethod) && req'.httpMethod == req.httpMethod && req'.query == req.query
    ensures Bind(env, req, dest) == BindQueryParams(env, req, dest)
    ensures Bind(env, req, dest) == Bind(env, req', dest)
  {
  }

  /** A failing body step ends Bind: the query parameters are not bound. */
  lemma BodyFailureStopsBind(env: Env, req: Request, dest: Dest)
    requires DecodersKeepTypes(env) && BodyDecodersKeepTarget(req)
    requires WellFormedRequest(req) && WellTyped(dest) && HasBodyMethod(req.httpMethod)
    requires BindBody(env, req, dest).err.Some?
    ensures Bind(env, req, dest) == BindBody(env, req, dest)
  {
  }

  /** A plain string field tagged for the query source. */
  predicate QueryStringField(f: Field, key: string)
  {
    && f.exported && !f.anonymous
    && f.typ == Type(String, NoUnmarshaler)
    && key != "" && TagGet(f.tags, "query") == key
  }

  /** Query values override body values: when Bind succeeds, a string field
      tagged with a query key that is present holds the first query value
      for that key, whatever the method, the body and its decoding did. */
  lemma QueryOverridesBody(env: Env, req: Request, t: Type, v: Value, i: nat, j: nat)
    requires DecodersKeepTypes(env) && BodyDecodersKeepTarget(req)
    requires WellFormedRequest(req) && HasType(v, t)
    requires t.kind.Struct? && i < |t.kind.fields|
    requires j < |req.query| && QueryStringField(t.kind.fields[i], req.query[j].key)
    ensures var r := Bind(env, req, PtrDest(t, v));
      r.err.None? ==> r.dest.PtrDest? && r.dest.value.StructV? && i < |r.dest.value.fieldValues|
                      && r.dest.value.fieldValues[i] == StringV(req.query[j].values[0])
  {
    var dest := PtrDest(t, v);
    var before := if HasBodyMethod(req.httpMethod) then BindBody(env, req, dest).dest else dest;
    if HasBodyMethod(req.httpMethod) {
      BindBodyKeepsTarget(env, req, dest);
    }
    assert before.PtrDest? && before.typ == t && HasType(before.value, t);
    var r := Bind(env, req, dest);
    if r.err.None? {
      if HasBodyMethod(req.httpMethod) {
        assert BindBody(env, req, dest).err.None?;
      }
      assert r == BindQueryParams(env, req, before);
      var vs := before.value.fieldValues;
      var w := BindFields(env, t, vs, 0, req.query, "query");
      assert r.dest.value == StructV(w.value);
      BindFieldsSuccess(env, t, vs, 0, req.query, "query");
      assert BindField(env, t, i, vs[i], req.query, "query") == Outcome(w.value[i], None);
      var ft := t.kind.fields[i].typ;
      ExactKeyBindsField(env, t, i, vs[i], req.query, "query", j);
      ScalarFieldUsesFirstValue(env, ft, vs[i], req.query[j].values);
      assert SetWithProperType(env, ft, req.query[j].values[0], vs[i]) == Outcome(StringV(req.query[j].values[0]), None);
    }
  }

  // ---------------------------------------------------------------------
  // A worked request: a PUT whose JSON body sets Status to "pending" and
  // whose query string is ?status=done

  const StatusType: Type :=
    Type(Struct([Field(Type(String, NoUnmarshaler), map["json" := "status", "query" := "status"], false, true)]), NoUnmarshaler)

  /** A JSON decoder that writes "pending" into a destination of StatusType
      and leaves any other destination alone. */
  function PendingDecoder(d: Dest): BodyDecoded
  {
    if d.PtrDest? && d.typ == StatusType then BodyDecoded(PtrDest(StatusType, StructV([StringV("pending")])), None)
    else BodyDecoded(d, None)
  }

  function PutRequest(): Request
  {
    Request("PUT", 21, "application/json; charset=utf-8", PendingDecoder, d => BodyDecoded(d, None),
            Success([]), [Param("status", ["done"])])
  }

  /** Both decoders of the example request keep the destination's type. */
  lemma PutRequestDecodersKeepTarget()
    ensures BodyDecodersKeepTarget(PutRequest())
  {
    var req := PutRequest();
    forall d | WellTyped(d)
      ensures SameTarget(d, req.json(d).dest) && SameTarget(d, req.xml(d).dest)
    {
      if d.PtrDest? && d.typ == StatusType {
        assert HasType(StructV([StringV("pending")]), StatusType);
      }
    }
  }

  /** The body step of the example writes "pending". */
  lemma PutRequestBody(env: Env)
    ensures BindBody(env, PutRequest(), PtrDest(StatusType, Zero(StatusType))) ==
      Bound(PtrDest(StatusType, StructV([StringV("pending")])), None)
  {
    var req := PutRequest();
    assert HasPrefix(req.contentType, MIMEApplicationJSON);
    var dest := PtrDest(StatusType, Zero(StatusType));
    assert req.json(dest) == BodyDecoded(PtrDest(StatusType, StructV([StringV("pending")])), None);
  }

  /** The query step of the example overwrites "pending" with "done". */
  lemma PutRequestQuery(env: Env)
    ensures BindQueryParams(env, PutRequest(), PtrDest(StatusType, StructV([StringV("pending")]))) ==
      Bound(PtrDest(StatusType, StructV([StringV("done")])), None)
  {
    var query := PutRequest().query;
    LookupExact(query, "status", 0);
    assert BindField(env, StatusType, 0, StringV("pending"), query, "query") == Outcome(StringV("done"), None);
    assert [StringV("pending")][0 := StringV("done")] == [StringV("done")];
    assert BindFields(env, StatusType, [StringV("pending")], 0, query, "query") == Outcome([StringV("done")], None);
  }

  /** The combined bind of the example: the JSON body sets Status to
      "pending" and the query string then overrides it with "done". */
  lemma PutRequestOverride(env: Env)
    requires DecodersKeepTypes(env)
    ensures BodyDecodersKeepTarget(PutRequest())
    ensures BindBody(env, PutRequest(), PtrDest(StatusType, Zero(StatusType))).dest.value == StructV([StringV("pending")])
    ensures Bind(env, PutRequest(), PtrDest(StatusType, Zero(StatusType))) ==
      Bound(PtrDest(StatusType, StructV([StringV("done")])), None)
  {
    PutRequestDecodersKeepTarget();
    PutRequestBody(env);
    PutRequestQuery(env);
  }
}

=== FILE: params.dfy ===
/** The multi-valued parameter map the binder reads (Go's url.Values,
    `map[string][]string`), and the key lookup bindData performs on it:
    the exact key first, then a case-insensitive search. Go's map has no
    order and its range loop visits keys in an unspecified order; here the
    map is a sequence of entries and that sequence is the visiting order. */
module Params {
  import opened Wrappers

  datatype Param = Param(key: string, values: seq<string>)

  type Values = seq<Param>

  /** Keys are distinct, and every key has at least one value, as the
      query and form parsers guarantee (the binder reads `values[0]`). */
  predicate WellFormed(data: Values)
  {
    && (forall i, j :: 0 <= i < j < |data| ==> data[i].key != data[j].key)
    && (forall i :: 0 <= i < |data| ==> |data[i].values| > 0)
  }

  function KeySet(data: Values): set<string>
  {
    set i | 0 <= i < |data| :: data[i].key
  }

  /** ASCII case folding. */
  function Lower(c: char): char
  {
    if 'A' <= c <= 'Z' then (c as int + 32) as char else c
  }

  /** strings.EqualFold restricted to ASCII letters. */
  predicate EqualFold(a: string, b: string)
  {
    |a| == |b| && forall i :: 0 <= i < |a| ==> Lower(a[i]) == Lower(b[i])
  }

  /** The first entry, in visiting order, whose key satisfies p. */
  function FindFirst(data: Values, p: string -> bool): (r: Option<nat>)
    ensures r.Some? ==> r.value < |data| && p(data[r.value].key)
    ensures r.Some? ==> forall j :: 0 <= j < r.value ==> !p(data[j].key)
    ensures r.None? <==> forall j :: 0 <= j < |data| ==> !p(data[j].key)
  {
    if |data| == 0 then None
    else if p(data[0].key) then Some(0)
    else match FindFirst(data[1..], p)
      case Some(i) => Some(i + 1)
      case None => None
  }

  /** The values bindData uses for a field whose tag names `name`: those
      under the key `name` itself if it is present, otherwise those under
      the first key equal to `name` up to case, otherwise none. Nothing is
      found exactly when no key is equal to the name up to case. */
  function Lookup(data: Values, name: string): (r: Option<seq<string>>)
    ensures r.None? <==> forall j :: 0 <= j < |data| ==> !EqualFold(data[j].key, name)
    ensures r.Some? ==> exists i :: 0 <= i < |data| && EqualFold(data[i].key, name) && r.value == data[i].values
  {
    match FindFirst(data, k => k == name)
    case Some(i) =>
      assert EqualFold(data[i].key, name);
      Some(data[i].values)
    case None =>
      match FindFirst(data, k => EqualFold(k, name))
      case Some(i) => Some(data[i].values)
      case None => None
  }

  /** An exact key is always used when present. */
  lemma LookupExact(data: Values, name: string, i: nat)
    requires WellFormed(data) && i < |data| && data[i].key == name
    ensures Lookup(data, name) == Some(data[i].values)
  {
    var f := FindFirst(data, k => k == name);
    assert f.Some?;
    assert f.value == i;
  }

  /** Without an exact key, a key equal up to case is used; the first one
      in visiting order when there are several. */
  lemma LookupFallback(data: Values, name: string)
    requires forall j :: 0 <= j < |data| ==> data[j].key != name
    ensures var r := Lookup(data, name);
      && (r.Some? <==> exists i :: 0 <= i < |data| && EqualFold(data[i].key, name))
      && (r.Some? ==> exists i :: 0 <= i < |data| && EqualFold(data[i].key, name) && r.value == data[i].values
                                && forall j :: 0 <= j < i ==> !EqualFold(data[j].key, name))
  {
    var e := FindFirst(data, k => k == name);
    assert e.None?;
    var f := FindFirst(data, k => EqualFold(k, name));
    if f.Some? {
      var i := f.value;
      assert EqualFold(data[i].key, name);
    }
  }

  /** The visiting order only matters for a tie: two orderings of the same
      entries agree on the lookup when the name is a key, or when at most
      one key equals it up to case. */
  lemma LookupOrderIndependent(data: Values, data': Values, name: string)
    requires WellFormed(data) && WellFormed(data')
    requires forall p :: p in data <==> p in data'
    requires || (exists i :: 0 <= i < |data| && data[i].key == name)
             || (forall i, j :: 0 <= i < |data| && 0 <= j < |data| && EqualFold(data[i].key, name) && EqualFold(data[j].key, name)
                   ==> i == j)
    ensures Lookup(data, name) == Lookup(data', name)
  {
    if i :| 0 <= i < |data| && data[i].key == name {
      assert data[i] in data';
      var i' :| 0 <= i' < |data'| && data'[i'] == data[i];
      LookupExact(data, name, i);
      LookupExact(data', name, i');
    } else {
      assert forall j :: 0 <= j < |data'| ==> data'[j].key != name by {
        forall j | 0 <= j < |data'|
          ensures data'[j].key != name
        {
          assert data'[j] in data;
        }
      }
      LookupFallback(data, name);
      LookupFallback(data', name);
      var r := Lookup(data, name);
      var r' := Lookup(data', name);
      if r.Some? {
        var i :| 0 <= i < |data| && EqualFold(data[i].key, name) && r.value == data[i].values;
        assert data[i] in data';
        var i' :| 0 <= i' < |data'| && data'[i'] == data[i];
        assert r'.Some?;
        var j' :| 0 <= j' < |data'| && EqualFold(data'[j'].key, name) && r'.value == data'[j'].values;
        assert data'[j'] in data;
        var j :| 0 <= j < |data| && data[j] == data'[j'];
        assert i == j;
      } else {
        forall j' | 0 <= j' < |data'|
          ensures !EqualFold(data'[j'].key, name)
        {
          assert data'[j'] in data;
        }
      }
    }
  }
}

=== FILE: reflection.dfy ===
/** An explicit stand-in for the part of Go's reflect package the binder
    relies on: static types (their kind, struct fields with tags, and which
    decoding interface they implement) and the values stored in them. */
module Reflection {
  import opened Wrappers
  import opened Strconv

  /** Width of a sized integer kind; `Word` is plain `int`/`uint`. */
  datatype Width = Word | W8 | W16 | W32 | W64

  /** The bit size the binder passes to strconv for each width. */
  function BitSize(w: Width): (b: nat)
    ensures b <= 64 && EffectiveBits(b) >= 8
  {
    match w
    case Word => 0
    case W8 => 8
    case W16 => 16
    case W32 => 32
    case W64 => 64
  }

  /** Which string-decoding interface a pointer to the type implements:
      BindUnmarshaler (UnmarshalParam) or encoding.TextUnmarshaler
      (UnmarshalText). A type implementing both counts as a
      BindUnmarshaler, the interface the binder asks for first. The name
      identifies the decoding method for the decoder oracle. */
  datatype Unmarshaler = NoUnmarshaler | ParamUnmarshaler(name: string) | TextUnmarshaler(name: string)

  datatype Type = Type(kind: Kind, unmarshaler: Unmarshaler)

  datatype Kind =
    | Int(iw: Width)
    | Uint(uw: Width)
    | Bool
    | Float32
    | Float64
    | String
    | Ptr(elem: Type)
    | Slice(of: Type)
    | Struct(fields: seq<Field>)
      /** A map with string keys and string elements. */
    | Map
      /** Arrays, channels, functions, interfaces, complex numbers, uintptr. */
    | Other

  /** A struct field as reflect.StructField describes it: its type, its tag
      values by tag key (a missing key reads as ""), whether it is embedded,
      and whether it is exported (only exported fields can be set). */
  datatype Field = Field(typ: Type, tags: map<string, string>, anonymous: bool, exported: bool)

  datatype Value =
    | IntV(i: int)
    | UintV(u: nat)
    | BoolV(b: bool)
      /** A floating-point value, kept as an uninterpreted bit pattern. */
    | FloatV(bits: nat)
    | StringV(s: string)
      /** A pointer; None is nil. */
    | PtrV(target: Option<Value>)
    | SliceV(elems: seq<Value>)
    | StructV(fieldValues: seq<Value>)
      /** A map; None is a nil map. */
    | MapV(entries: Option<map<string, string>>)
    | OtherV

  /** reflect.StructTag.Get: the value for the key, or "" when absent. */
  function TagGet(tags: map<string, string>, key: string): (name: string)
    ensures key in tags ==> name == tags[key]
    ensures key !in tags ==> name == ""
  {
    if key in tags then tags[key] else ""
  }

  /** The value has the shape of the type, and integers are within the
      range of their width. Go's type system guarantees this of every value
      reflection hands out. */
  predicate HasType(v: Value, t: Type)
    decreases t
  {
    match t.kind
    case Int(w) => v.IntV? && IntMin(BitSize(w)) <= v.i <= IntMax(BitSize(w))
    case Uint(w) => v.UintV? && v.u <= UintMax(BitSize(w))
    case Bool => v.BoolV?
    case Float32 => v.FloatV?
    case Float64 => v.FloatV?
    case String => v.StringV?
    case Ptr(e) => v.PtrV? && (v.target.Some? ==> HasType(v.target.value, e))
    case Slice(e) => v.SliceV? && forall x :: x in v.elems ==> HasType(x, e)
    case Struct(fs) =>
      && v.StructV?
      && |v.fieldValues| == |fs|
      && forall i :: 0 <= i < |fs| ==> HasType(v.fieldValues[i], fs[i].typ)
    case Map => v.MapV?
    case Other => v.OtherV?
  }

  /** reflect.Zero: the zero value of a type. */
  function Zero(t: Type): (z: Value)
    ensures HasType(z, t)
    decreases t
  {
    match t.kind
    case Int(_) => IntV(0)
    case Uint(_) => UintV(0)
    case Bool => BoolV(false)
    case Float32 => FloatV(0)
    case Float64 => FloatV(0)
    case String => StringV("")
    case Ptr(_) => PtrV(None)
    case Slice(_) => SliceV([])
    case Struct(fs) => StructV(seq(|fs|, i requires 0 <= i < |fs| => Zero(fs[i].typ)))
    case Map => MapV(None)
    case Other => OtherV
  }

  /** The destination handed to the binder: nil, or a pointer to a value of
      the given type. */
  datatype Dest = NilDest | PtrDest(typ: Type, value: Value)

  predicate WellTyped(d: Dest)
  {
    d.PtrDest? ==> HasType(d.value, d.typ)
  }

  /** A decoder kept the destination's nilness and its type, and left a
      value of that type. */
  predicate SameTarget(d: Dest, d': Dest)
  {
    && d.NilDest? == d'.NilDest?
    && (d.PtrDest? ==> d'.typ == d.typ && HasType(d'.value, d.typ))
  }
}

=== FILE: strconv.dfy ===
/** Base-10 integer and boolean parsing as Go's strconv package performs it
    for the binder (ParseInt, ParseUint, ParseBool), together with the
    formatting functions that are their inverses. The binder always passes
    base 10. */
module Strconv {
  import opened Wrappers

  /** Bit size Go uses for `int` and `uint` when a caller passes bit size 0. */
  const IntSize: nat := 64

  /** Which strconv function produced an error; it is part of the message. */
  datatype ParseFunc = ParseIntFn | ParseUintFn | ParseBoolFn | ParseFloatFn

  /** Why a conversion failed: ErrSyntax, ErrRange, or an invalid bit size. */
  datatype NumReason = Syntax | Range | BadBitSize

  /** strconv.NumError: the function, the input as given, and the reason. */
  datatype NumError = NumError(func: ParseFunc, num: string, reason: NumReason)

  function EffectiveBits(bitSize: nat): nat
  {
    if bitSize == 0 then IntSize else bitSize
  }

  function Pow2(n: nat): (p: nat)
    ensures p >= 1
  {
    if n == 0 then 1 else 2 * Pow2(n - 1)
  }

  /** Largest value of an unsigned integer of the given bit size. */
  function UintMax(bitSize: nat): int
  {
    Pow2(EffectiveBits(bitSize)) - 1
  }

  /** Largest value of a signed integer of the given bit size. */
  function IntMax(bitSize: nat): int
    requires bitSize <= 64
  {
    Pow2(EffectiveBits(bitSize) - 1) - 1
  }

  /** Smallest value of a signed integer of the given bit size. */
  function IntMin(bitSize: nat): int
    requires bitSize <= 64
  {
    -(Pow2(EffectiveBits(bitSize) - 1) as int)
  }

  predicate IsDigit(c: char)
  {
    '0' <= c <= '9'
  }

  function DigitValue(c: char): (d: nat)
    requires IsDigit(c)
    ensures d < 10
  {
    (c as int) - ('0' as int)
  }

  function DigitChar(d: nat): (c: char)
    requires d < 10
    ensures IsDigit(c) && DigitValue(c) == d
  {
    ('0' as int + d) as char
  }

  predicate AllDigits(s: string)
  {
    forall i :: 0 <= i < |s| ==> IsDigit(s[i])
  }

  /** A non-empty run of decimal digits (leading zeros allowed, as in Go). */
  predicate IsDecimal(s: string)
  {
    |s| > 0 && AllDigits(s)
  }

  /** The number a run of decimal digits denotes. */
  function DecimalValue(s: string): nat
    requires AllDigits(s)
  {
    if |s| == 0 then 0 else DecimalValue(s[..|s| - 1]) * 10 + DigitValue(s[|s| - 1])
  }

  /** An optional '+' or '-' followed by a decimal run. */
  predicate IsSignedDecimal(s: string)
  {
    |s| > 0 && (if s[0] == '+' || s[0] == '-' then IsDecimal(s[1..]) else IsDecimal(s))
  }

  function SignedDecimalValue(s: string): int
    requires IsSignedDecimal(s)
  {
    if s[0] == '-' then -(DecimalValue(s[1..]) as int)
    else if s[0] == '+' then DecimalValue(s[1..])
    else DecimalValue(s)
  }

  /** The digit loop of ParseUint, from position i with accumulated value n:
      a non-digit is a syntax error, and exceeding maxVal is a range error
      reported at once, even if a non-digit follows later. (Go also checks
      that n*10 does not overflow 64 bits; with unbounded integers that case
      is already covered by the maxVal test, since maxVal < 2^64.) */
  function ScanDigits(s: string, maxVal: nat, i: nat, n: nat): Result<nat, NumReason>
    requires i <= |s|
    decreases |s| - i
  {
    if i == |s| then Success(n)
    else if !IsDigit(s[i]) then Failure(Syntax)
    else
      var n1 := n * 10 + DigitValue(s[i]);
      if n1 > maxVal then Failure(Range) else ScanDigits(s, maxVal, i + 1, n1)
  }

  /** strconv.ParseUint(s, 10, bitSize). */
  function ParseUint(s: string, bitSize: nat): (r: Result<nat, NumError>)
    ensures r.Success? <==> bitSize <= 64 && IsDecimal(s) && DecimalValue(s) <= UintMax(bitSize)
    ensures r.Success? ==> r.value == DecimalValue(s) && r.value <= UintMax(bitSize)
    ensures r.Failure? ==> r.error.func == ParseUintFn && r.error.num == s
  {
    if s == "" then Failure(NumError(ParseUintFn, s, Syntax))
    else if bitSize > 64 then Failure(NumError(ParseUintFn, s, BadBitSize))
    else
      ScanDigitsCorrect(s, UintMax(bitSize));
      match ScanDigits(s, UintMax(bitSize), 0, 0)
      case Success(n) => Success(n)
      case Failure(reason) => Failure(NumError(ParseUintFn, s, reason))
  }

  /** strconv.ParseInt(s, 10, bitSize): the sign is taken off, the digits are
      parsed as unsigned, every failure is relabelled with ParseInt and the
      original input, and the magnitude is checked against the signed range.
      As in Go, an unsigned range failure continues with the unsigned maximum
      as magnitude, so it ends as a range failure for every bit size of 2 or
      more. */
  function ParseInt(s: string, bitSize: nat): (r: Result<int, NumError>)
    ensures r.Success? ==> bitSize <= 64 && IntMin(bitSize) <= r.value <= IntMax(bitSize)
    ensures r.Failure? ==> r.error.func == ParseIntFn && r.error.num == s
  {
    if s == "" then Failure(NumError(ParseIntFn, s, Syntax))
    else
      var neg := s[0] == '-';
      var digits := if s[0] == '+' || s[0] == '-' then s[1..] else s;
      var un: Result<nat, NumError> := ParseUint(digits, bitSize);
      if un.Failure? && un.error.reason != Range then Failure(NumError(ParseIntFn, s, un.error.reason))
      else
        var magnitude: nat := if un.Success? then un.value else UintMax(bitSize);
        var cutoff := Pow2(EffectiveBits(bitSize) - 1);
        if !neg && magnitude >= cutoff then Failure(NumError(ParseIntFn, s, Range))
        else if neg && magnitude > cutoff then Failure(NumError(ParseIntFn, s, Range))
        else Success(if neg then -(magnitude as int) else magnitude)
  }

  /** strconv.ParseBool: the accepted spellings are those of Go's standard
      library ("1", "t", "T", "TRUE", "true", "True" and their false
      counterparts). */
  function ParseBool(s: string): (r: Result<bool, NumError>)
    ensures r.Success? <==> s in {"1", "t", "T", "TRUE", "true", "True", "0", "f", "F", "FALSE", "false", "False"}
    ensures r.Success? ==> (r.value <==> s in {"1", "t", "T", "TRUE", "true", "True"})
    ensures r.Failure? ==> r.error == NumError(ParseBoolFn, s, Syntax)
  {
    if s in {"1", "t", "T", "TRUE", "true", "True"} then Success(true)
    else if s in {"0", "f", "F", "FALSE", "false", "False"} then Success(false)
    else Failure(NumError(ParseBoolFn, s, Syntax))
  }

  /** strconv.FormatUint(n, 10): shortest decimal spelling. */
  function FormatUint(n: nat): (s: string)
    ensures IsDecimal(s)
    decreases n
  {
    if n < 10 then [DigitChar(n)] else FormatUint(n / 10) + [DigitChar(n % 10)]
  }

  /** strconv.FormatInt(i, 10). */
  function FormatInt(i: int): string
  {
    if i < 0 then "-" + FormatUint(-i) else FormatUint(i)
  }

  /** strconv.FormatBool. */
  function FormatBool(b: bool): string
  {
    if b then "true" else "false"
  }

  // ---------------------------------------------------------------------
  // Facts about the digit scanner

  lemma {:induction false} DecimalValuePrefix(s: string, i: nat)
    requires AllDigits(s) && i < |s|
    ensures AllDigits(s[..i + 1]) && AllDigits(s[..i])
    ensures DecimalValue(s[..i + 1]) == DecimalValue(s[..i]) * 10 + DigitValue(s[i])
  {
    assert s[..i + 1][..i] == s[..i];
  }

  lemma {:induction false} DecimalValueMonotone(s: string, i: nat)
    requires AllDigits(s) && i <= |s|
    ensures AllDigits(s[..i]) && DecimalValue(s[..i]) <= DecimalValue(s)
    decreases |s| - i
  {
    if i == |s| {
      assert s[..i] == s;
    } else {
      DecimalValueMonotone(s, i + 1);
      DecimalValuePrefix(s, i);
    }
  }

  /** The scanner, started at position i with the value of the first i
      digits, succeeds exactly on all-digit input whose value fits. */
  lemma {:induction false} ScanDigitsFrom(s: string, maxVal: nat, i: nat)
    requires i <= |s| && AllDigits(s[..i]) && DecimalValue(s[..i]) <= maxVal
    ensures var r := ScanDigits(s, maxVal, i, DecimalValue(s[..i]));
      (r.Success? <==> AllDigits(s) && DecimalValue(s) <= maxVal) &&
      (r.Success? ==> r.value == DecimalValue(s))
    decreases |s| - i
  {
    if i == |s| {
      assert s[..i] == s;
    } else if !IsDigit(s[i]) {
      assert !AllDigits(s);
    } else {
      assert AllDigits(s[..i + 1]) by {
        assert forall k :: 0 <= k < i + 1 ==> s[..i + 1][k] == s[k];
      }
      DecimalValuePrefix(s[..i + 1], i);
      assert s[..i + 1][..i] == s[..i];
      assert s[..i + 1][i] == s[i];
      var n1 := DecimalValue(s[..i]) * 10 + DigitValue(s[i]);
      assert n1 == DecimalValue(s[..i + 1]);
      if n1 > maxVal {
        if AllDigits(s) {
          DecimalValueMonotone(s, i + 1);
        }
      } else {
        ScanDigitsFrom(s, maxVal, i + 1);
      }
    }
  }

  lemma ScanDigitsCorrect(s: string, maxVal: nat)
    ensures var r := ScanDigits(s, maxVal, 0, 0);
      (r.Success? <==> AllDigits(s) && DecimalValue(s) <= maxVal) &&
      (r.Success? ==> r.value == DecimalValue(s))
  {
    assert s[..0] == "";
    ScanDigitsFrom(s, maxVal, 0);
  }

  // ---------------------------------------------------------------------
  // Round trips and characterisations

  lemma {:induction false} FormatUintValue(n: nat)
    ensures DecimalValue(FormatUint(n)) == n
    decreases n
  {
    if n >= 10 {
      FormatUintValue(n / 10);
      var s := FormatUint(n);
      assert s[..|s| - 1] == FormatUint(n / 10);
    }
  }

  /** ParseUint undoes FormatUint for every value of the bit size. */
  lemma ParseUintRoundTrip(n: nat, bitSize: nat)
    requires bitSize <= 64 && n <= UintMax(bitSize)
    ensures ParseUint(FormatUint(n), bitSize) == Success(n)
  {
    FormatUintValue(n);
  }

  lemma Pow2Monotone(a: nat, b: nat)
    requires a <= b
    ensures Pow2(a) <= Pow2(b)
    decreases b
  {
    if a < b {
      Pow2Monotone(a, b - 1);
    }
  }

  /** Every signed value of the bit size has a magnitude within the
      unsigned range of the same size. */
  lemma SignedMagnitudeFits(i: int, bitSize: nat)
    requires bitSize <= 64 && IntMin(bitSize) <= i <= IntMax(bitSize)
    ensures (if i < 0 then -i else i) <= UintMax(bitSize)
  {
    var b := EffectiveBits(bitSize);
    assert Pow2(b) == 2 * Pow2(b - 1);
  }

  /** ParseInt undoes FormatInt for every value of the bit size. */
  lemma ParseIntRoundTrip(i: int, bitSize: nat)
    requires bitSize <= 64 && IntMin(bitSize) <= i <= IntMax(bitSize)
    ensures ParseInt(FormatInt(i), bitSize) == Success(i)
  {
    var m: nat := if i < 0 then -i else i;
    SignedMagnitudeFits(i, bitSize);
    FormatUintValue(m);
    var s := FormatInt(i);
    if i < 0 {
      assert s[1..] == FormatUint(m);
    } else {
      assert s == FormatUint(m);
      assert s[0] != '+' && s[0] != '-';
    }
  }

  /** For the bit sizes the binder uses (0, 8, 16, 32, 64, and any size of
      at least 2), ParseInt succeeds exactly on an optionally signed decimal
      whose value is in range, and then returns that value. */
  lemma ParseIntCharacterised(s: string, bitSize: nat)
    requires bitSize <= 64 && EffectiveBits(bitSize) >= 2
    ensures var r := ParseInt(s, bitSize);
      (r.Success? <==> IsSignedDecimal(s) && IntMin(bitSize) <= SignedDecimalValue(s) <= IntMax(bitSize)) &&
      (r.Success? ==> r.value == SignedDecimalValue(s))
  {
    if s != "" {
      var b := EffectiveBits(bitSize);
      assert Pow2(b) == 2 * Pow2(b - 1);
      Pow2Monotone(1, b - 1);
    }
  }

  /** ParseBool undoes FormatBool. */
  lemma ParseBoolRoundTrip(b: bool)
    ensures ParseBool(FormatBool(b)) == Success(b)
  {
  }
}

=== FILE: walker.dfy ===
/** The field walker of bind.go (bindData): it copies a parameter map into
    a map destination, refuses other non-struct destinations (silently for
    the query source), and otherwise visits the struct's fields in
    declaration order, recursing into untagged structs and coercing the
    values found under each field's tag. */
module Walker {
  import opened Wrappers
  import opened Reflection
  import opened Params
  import opened Coerce

  /** SetMapIndex(k, data[k][0]) for every key of the parameter map. */
  function CopyFirst(m: map<string, string>, data: Values): (r: map<string, string>)
    requires WellFormed(data)
    ensures r.Keys == m.Keys + KeySet(data)
    ensures forall i :: 0 <= i < |data| ==> r[data[i].key] == data[i].values[0]
    ensures forall k :: k in m && k !in KeySet(data) ==> r[k] == m[k]
    decreases |data|
  {
    if |data| == 0 then m
    else
      var rest := data[1..];
      assert WellFormed(rest);
      assert KeySet(data) == {data[0].key} + KeySet(rest) by {
        forall k | k in KeySet(data) ensures k in {data[0].key} + KeySet(rest) {
          var i :| 0 <= i < |data| && data[i].key == k;
          if i > 0 { assert rest[i - 1].key == k; }
        }
      }
      assert data[0].key !in KeySet(rest);
      CopyFirst(m[data[0].key := data[0].values[0]], rest)
  }

  /** bindData for a non-nil destination of type t holding v. */
  function BindInto(env: Env, t: Type, v: Value, data: Values, tag: string): (r: Outcome<Value>)
    requires WellFormed(data) && HasType(v, t)
    ensures |data| == 0 ==> r == Outcome(v, None)
    ensures r.err == Some(NotAStruct) <==> |data| > 0 && !t.kind.Map? && !t.kind.Struct? && tag != "query"
    ensures !t.kind.Map? && !t.kind.Struct? ==> r.value == v
    ensures t.kind.Struct? ==> r.value.StructV? && |r.value.fieldValues| == |t.kind.fields|
    decreases t, 1
  {
    if |data| == 0 then Outcome(v, None)
    else match t.kind
      case Map =>
        (match v.entries
         case None => Outcome(v, Some(Panic(NilMapAssignment)))
         case Some(m) => Outcome(MapV(Some(CopyFirst(m, data))), None))
      case Struct(fs) =>
        var r := BindFields(env, t, v.fieldValues, 0, data, tag);
        Outcome(StructV(r.value), r.err)
      case _ =>
        // incompatible destination: for the query source the data is
        // assumed to belong to the body
        if tag == "query" then Outcome(v, None) else Outcome(v, Some(NotAStruct))
  }

  /** The field loop of bindData from field i on, over the current field
      values vs; it stops at the first error, keeping what was written. */
  function BindFields(env: Env, t: Type, vs: seq<Value>, i: nat, data: Values, tag: string): (r: Outcome<seq<Value>>)
    requires t.kind.Struct? && |vs| == |t.kind.fields| && i <= |vs|
    requires forall j :: i <= j < |vs| ==> HasType(vs[j], t.kind.fields[j].typ)
    requires WellFormed(data)
    ensures |r.value| == |vs|
    ensures r.err.Some? ==> !r.err.value.NotAStruct?
    decreases t, 0, |vs| - i, 2
  {
    if i == |vs| then Outcome(vs, None)
    else
      var f := BindField(env, t, i, vs[i], data, tag);
      if f.err.Some? then Outcome(vs[i := f.value], f.err)
      else BindFields(env, t, vs[i := f.value], i + 1, data, tag)
  }

  /** One iteration of the field loop, for field i holding v. An embedded
      pointer is followed to its target; a nil one, like an unexported
      field, cannot be set and is skipped. */
  function BindField(env: Env, t: Type, i: nat, v: Value, data: Values, tag: string): (r: Outcome<Value>)
    requires t.kind.Struct? && i < |t.kind.fields|
    requires HasType(v, t.kind.fields[i].typ) && WellFormed(data)
    ensures r.err.Some? ==> !r.err.value.NotAStruct?
    ensures !t.kind.fields[i].exported ==> r == Outcome(v, None)
    ensures t.kind.fields[i].anonymous && t.kind.fields[i].typ.kind.Ptr? ==>
      r.value.PtrV? && (r.value.target.None? <==> v.target.None?)
    decreases t, 0, |t.kind.fields| - i, 1
  {
    var f := t.kind.fields[i];
    if f.anonymous && f.typ.kind.Ptr? then
      if v.target.None? || !f.exported then Outcome(v, None)
      else
        var r := BindSettable(env, t, i, f.typ.kind.elem, v.target.value, true, data, tag);
        Outcome(PtrV(Some(r.value)), r.err)
    else if !f.exported then Outcome(v, None)
    else BindSettable(env, t, i, f.typ, v, false, data, tag)
  }

  /** The rest of the loop body for a settable field i, whose value (after
      following an embedded pointer, when viaPtr holds) has type ft. */
  function BindSettable(env: Env, t: Type, i: nat, ft: Type, fv: Value, viaPtr: bool, data: Values, tag: string)
    : (r: Outcome<Value>)
    requires t.kind.Struct? && i < |t.kind.fields|
    requires if viaPtr then t.kind.fields[i].typ.kind == Ptr(ft) else t.kind.fields[i].typ == ft
    requires HasType(fv, ft) && WellFormed(data)
    ensures r.err.Some? ==> !r.err.value.NotAStruct?
    ensures viaPtr && r.value != fv ==> TagGet(t.kind.fields[i].tags, tag) == "" && ft.kind.Struct?
    ensures TagGet(t.kind.fields[i].tags, tag) == "" && (ft.unmarshaler.ParamUnmarshaler? || !ft.kind.Struct?) ==>
      r == Outcome(fv, None)
    decreases t, 0, |t.kind.fields| - i, 0
  {
    var f := t.kind.fields[i];
    var name := TagGet(f.tags, tag);
    if f.anonymous && ft.kind.Struct? && name != "" then Outcome(fv, Some(TaggedAnonymousStruct))
    else if name == "" then
      // untagged: only a struct that is not a BindUnmarshaler is searched
      if !ft.unmarshaler.ParamUnmarshaler? && ft.kind.Struct? then BindInto(env, ft, fv, data, tag)
      else Outcome(fv, None)
    else match Lookup(data, name)
      case None => Outcome(fv, None)
      case Some(vals) =>
        if viaPtr then Outcome(fv, Some(Panic(EmbeddedPointerToNonStruct)))
        else BindValues(env, ft, fv, vals)
  }

  /** A field of type ft holding fv, given the non-empty values found for
      its tag: a custom decoder sees the first value, a slice receives
      every value, anything else is set from the first value. */
  function BindValues(env: Env, ft: Type, fv: Value, vals: seq<string>): (r: Outcome<Value>)
    requires |vals| > 0 && HasType(fv, ft)
    ensures r.err.Some? ==> IsCoercionError(r.err.value)
    ensures ft.kind.Slice? && ft.unmarshaler.NoUnmarshaler? && r.err.None? ==> r.value.SliceV? && |r.value.elems| == |vals|
  {
    var u := UnmarshalField(env, ft, vals[0], fv);
    if u.handled then Outcome(u.value, u.err)
    else if ft.kind.Slice? && |vals| > 0 then
      BuildSliceFirstFailure(env, ft.kind.of, vals);
      match BuildSlice(env, ft.kind.of, vals)
      case Success(elems) => Outcome(SliceV(elems), None)
      case Failure(e) => Outcome(u.value, Some(e))
    else SetWithProperType(env, ft, vals[0], u.value)
  }

  /** Coercion of one string into a fresh element of type e, as done for
      each slot of a new slice. */
  function ElementOf(env: Env, e: Type, s: string): Outcome<Value>
  {
    SetWithProperType(env, e, s, Zero(e))
  }

  /** The outcomes of coercing each value into a fresh element, in order. */
  function Elements(env: Env, e: Type, vals: seq<string>): (outs: seq<Outcome<Value>>)
    ensures |outs| == |vals| && forall j :: 0 <= j < |vals| ==> outs[j] == ElementOf(env, e, vals[j])
  {
    seq(|vals|, j requires 0 <= j < |vals| => ElementOf(env, e, vals[j]))
  }

  /** Walks element outcomes in order and stops at the first error, as the
      slice-building loop does. */
  function Collect(outs: seq<Outcome<Value>>): (r: Result<seq<Value>, BindError>)
    ensures r.Success? <==> forall j :: 0 <= j < |outs| ==> outs[j].err.None?
    ensures r.Success? ==> |r.value| == |outs| && forall j :: 0 <= j < |outs| ==> r.value[j] == outs[j].value
  {
    if |outs| == 0 then Success([])
    else if outs[0].err.Some? then Failure(outs[0].err.value)
    else match Collect(outs[1..])
      case Success(rest) =>
        assert forall j :: 0 < j < |outs| ==> outs[j] == outs[1..][j - 1] && ([outs[0].value] + rest)[j] == rest[j - 1];
        Success([outs[0].value] + rest)
      case Failure(err) =>
        assert forall j :: 0 <= j < |outs| - 1 ==> outs[1..][j] == outs[j + 1];
        Failure(err)
  }

  /** Collect stopping on an error reports the first failing outcome. */
  lemma {:induction false} CollectFirstFailure(outs: seq<Outcome<Value>>)
    ensures var r := Collect(outs);
      r.Failure? ==> exists k :: 0 <= k < |outs| && outs[k].err == Some(r.error)
                                && forall j :: 0 <= j < k ==> outs[j].err.None?
  {
    if |outs| > 0 && outs[0].err.None? {
      var r := Collect(outs[1..]);
      CollectFirstFailure(outs[1..]);
      if r.Failure? {
        var k :| 0 <= k < |outs| - 1 && outs[1..][k].err == Some(r.error)
                 && forall j :: 0 <= j < k ==> outs[1..][j].err.None?;
        assert outs[1..][k] == outs[k + 1];
        forall j | 0 <= j < k + 1 ensures outs[j].err.None? {
          if j > 0 { assert outs[j] == outs[1..][j - 1]; }
        }
      }
    }
  }

  /** The slice built for a slice field: element j is the coercion of
      vals[j], and the slice is built only when every element coerces. */
  function BuildSlice(env: Env, e: Type, vals: seq<string>): (r: Result<seq<Value>, BindError>)
    ensures r.Success? <==> forall j :: 0 <= j < |vals| ==> ElementOf(env, e, vals[j]).err.None?
    ensures r.Success? ==> |r.value| == |vals| && forall j :: 0 <= j < |vals| ==> r.value[j] == ElementOf(env, e, vals[j]).value
  {
    Collect(Elements(env, e, vals))
  }

  /** A slice that is not built reports the error of its first failing
      element. */
  lemma BuildSliceFirstFailure(env: Env, e: Type, vals: seq<string>)
    ensures var r := BuildSlice(env, e, vals);
      r.Failure? ==> exists k :: 0 <= k < |vals| && ElementOf(env, e, vals[k]).err == Some(r.error)
                                && forall j :: 0 <= j < k ==> ElementOf(env, e, vals[j]).err.None?
  {
    CollectFirstFailure(Elements(env, e, vals));
  }

  /** bindData(destination, data, tag). */
  function BindData(env: Env, dest: Dest, data: Values, tag: string): (r: Outcome<Dest>)
    requires WellFormed(data) && WellTyped(dest)
    ensures dest.NilDest? || |data| == 0 ==> r == Outcome(dest, None)
    ensures r.value.NilDest? == dest.NilDest? && (dest.PtrDest? ==> r.value.typ == dest.typ)
  {
    match dest
    case NilDest => Outcome(dest, None)
    case PtrDest(t, v) =>
      var r := BindInto(env, t, v, data, tag);
      Outcome(PtrDest(t, r.value), r.err)
  }
}

=== FILE: walker_facts.dfy ===
/** What bindData promises, stated over the model of the walker. */
module WalkerFacts {
  import opened Wrappers
  import opened Reflection
  import opened Params
  import opened Coerce
  import opened Walker

  /** A map destination receives every key with its first value; other
      keys keep theirs; no coercion, no error. */
  lemma MapDestinationCopiesFirstValues(env: Env, t: Type, m: map<string, string>, data: Values, tag: string)
    requires t.kind.Map? && WellFormed(data) && |data| > 0
    ensures var r := BindInto(env, t, MapV(Some(m)), data, tag);
      && r.err.None?
      && r.value.MapV? && r.value.entries.Some?
      && r.value.entries.value.Keys == m.Keys + KeySet(data)
      && (forall i :: 0 <= i < |data| ==> r.value.entries.value[data[i].key] == data[i].values[0])
      && (forall k :: k in m && k !in KeySet(data) ==> r.value.entries.value[k] == m[k])
  {
  }

  /** A destination that is neither a map nor a struct is left alone: with
      success for the query source, with "must be a struct" otherwise. */
  lemma NonStructDestination(env: Env, t: Type, v: Value, data: Values, tag: string)
    requires WellFormed(data) && HasType(v, t) && |data| > 0
    requires !t.kind.Map? && !t.kind.Struct?
    ensures BindInto(env, t, v, data, tag) == Outcome(v, if tag == "query" then None else Some(NotAStruct))
  {
  }

  /** The field loop does not touch the fields before its start. */
  lemma {:induction false} BindFieldsKeepsPrefix(env: Env, t: Type, vs: seq<Value>, i: nat, data: Values, tag: string)
    requires t.kind.Struct? && |vs| == |t.kind.fields| && i <= |vs|
    requires forall j :: i <= j < |vs| ==> HasType(vs[j], t.kind.fields[j].typ)
    requires WellFormed(data)
    ensures var r := BindFields(env, t, vs, i, data, tag);
      forall j :: 0 <= j < i ==> r.value[j] == vs[j]
    decreases |vs| - i
  {
    if i < |vs| {
      var f := BindField(env, t, i, vs[i], data, tag);
      if f.err.None? {
        BindFieldsKeepsPrefix(env, t, vs[i := f.value], i + 1, data, tag);
      }
    }
  }

  /** The field loop in closed form when it succeeds: each field, from the
      start on, holds the result of binding it from its own original value,
      independently of the other fields. */
  lemma {:induction false} BindFieldsSuccess(env: Env, t: Type, vs: seq<Value>, i: nat, data: Values, tag: string)
    requires t.kind.Struct? && |vs| == |t.kind.fields| && i <= |vs|
    requires forall j :: i <= j < |vs| ==> HasType(vs[j], t.kind.fields[j].typ)
    requires WellFormed(data)
    ensures var r := BindFields(env, t, vs, i, data, tag);
      r.err.None? ==> forall j :: i <= j < |vs| ==> BindField(env, t, j, vs[j], data, tag) == Outcome(r.value[j], None)
    decreases |vs| - i
  {
    if i < |vs| {
      var f := BindField(env, t, i, vs[i], data, tag);
      var vs' := vs[i := f.value];
      if f.err.None? {
        BindFieldsSuccess(env, t, vs', i + 1, data, tag);
        BindFieldsKeepsPrefix(env, t, vs', i + 1, data, tag);
        var r := BindFields(env, t, vs', i + 1, data, tag);
        assert r.value[i] == f.value;
        assert forall j :: i + 1 <= j < |vs| ==> vs'[j] == vs[j];
      }
    }
  }

  /** The outcome of each field's own step of the loop, for the field
      values vs; a value outside its field's type (which the loop never
      meets) has no step and is shown unchanged. */
  ghost function Steps(env: Env, t: Type, vs: seq<Value>, data: Values, tag: string): (outs: seq<Outcome<Value>>)
    requires t.kind.Struct? && |vs| == |t.kind.fields| && WellFormed(data)
    ensures |outs| == |vs|
  {
    seq(|vs|, j requires 0 <= j < |vs| =>
      if HasType(vs[j], t.kind.fields[j].typ) then BindField(env, t, j, vs[j], data, tag) else Outcome(vs[j], None))
  }

  /** Among the steps from i on, step k is the first to fail: it left
      r's value and error, every step before it succeeded with r's value,
      and the fields after it are as in vs. */
  ghost predicate FirstFailure(outs: seq<Outcome<Value>>, vs: seq<Value>, i: nat, r: Outcome<seq<Value>>)
    requires |outs| == |vs| == |r.value| && i <= |vs|
  {
    exists k :: i <= k < |vs|
      && outs[k] == Outcome(r.value[k], r.err)
      && (forall j :: i <= j < k ==> outs[j] == Outcome(r.value[j], None))
      && (forall j :: k < j < |vs| ==> r.value[j] == vs[j])
  }

  /** A first failure after a successful step i is the first failure from
      step i on. */
  lemma FirstFailureShift(outs: seq<Outcome<Value>>, outs': seq<Outcome<Value>>, vs: seq<Value>, vs': seq<Value>,
                          i: nat, r: Outcome<seq<Value>>)
    requires |outs| == |outs'| == |vs| == |vs'| == |r.value| && i < |vs|
    requires forall j :: i < j < |vs| ==> outs'[j] == outs[j] && vs'[j] == vs[j]
    requires outs[i] == Outcome(r.value[i], None)
    requires FirstFailure(outs', vs', i + 1, r)
    ensures FirstFailure(outs, vs, i, r)
  {
    var k :| i + 1 <= k < |vs|
        && outs'[k] == Outcome(r.value[k], r.err)
        && (forall j :: i + 1 <= j < k ==> outs'[j] == Outcome(r.value[j], None))
        && (forall j :: k < j < |vs| ==> r.value[j] == vs'[j]);
    assert outs[k] == Outcome(r.value[k], r.err);
    assert forall j :: i <= j < k ==> outs[j] == Outcome(r.value[j], None);
    assert forall j :: k < j < |vs| ==> r.value[j] == vs[j];
  }

  /** The field loop in closed form when it fails: some field k failed, the
      fields from the start up to k succeeded and hold their results, field
      k holds what its failed binding left, and later fields are untouched. */
  lemma {:induction false} BindFieldsFailure(env: Env, t: Type, vs: seq<Value>, i: nat, data: Values, tag: string)
    requires t.kind.Struct? && |vs| == |t.kind.fields| && i <= |vs|
    requires forall j :: i <= j < |vs| ==> HasType(vs[j], t.kind.fields[j].typ)
    requires WellFormed(data)
    ensures var r := BindFields(env, t, vs, i, data, tag);
      r.err.Some? ==> FirstFailure(Steps(env, t, vs, data, tag), vs, i, r)
    decreases |vs| - i
  {
    if i < |vs| {
      var f := BindField(env, t, i, vs[i], data, tag);
      var vs' := vs[i := f.value];
      var outs := Steps(env, t, vs, data, tag);
      assert outs[i] == f;
      if f.err.None? {
        BindFieldsFailure(env, t, vs', i + 1, data, tag);
        BindFieldsKeepsPrefix(env, t, vs', i + 1, data, tag);
        var r := BindFields(env, t, vs', i + 1, data, tag);
        assert BindFields(env, t, vs, i, data, tag) == r;
        if r.err.Some? {
          var outs' := Steps(env, t, vs', data, tag);
          forall j | i < j < |vs| ensures outs'[j] == outs[j] && vs'[j] == vs[j] {
            assert vs'[j] == vs[j];
          }
          assert r.value[i] == f.value;
          FirstFailureShift(outs, outs', vs, vs', i, r);
        }
      } else {
        var r := Outcome(vs', f.err);
        assert BindFields(env, t, vs, i, data, tag) == r;
        assert forall j :: i < j < |vs| ==> r.value[j] == vs[j];
        assert outs[i] == Outcome(r.value[i], r.err);
      }
    }
  }

  /** A struct field that would be set, is anonymous (embedded), is a
      struct or a non-nil pointer to one, and carries a tag for the source. */
  predicate TaggedEmbeddedStruct(f: Field, v: Value, tag: string)
  {
    && f.exported && f.anonymous && TagGet(f.tags, tag) != ""
    && (f.typ.kind.Struct? || (f.typ.kind.Ptr? && f.typ.kind.elem.kind.Struct? && v.PtrV? && v.target.Some?))
  }

  /** Given any non-empty data, a struct with a tagged embedded struct field is
      never bound successfully. */
  lemma TaggedEmbeddedStructFails(env: Env, t: Type, v: Value, data: Values, tag: string, k: nat)
    requires WellFormed(data) && |data| > 0 && HasType(v, t)
    requires t.kind.Struct? && k < |t.kind.fields| && TaggedEmbeddedStruct(t.kind.fields[k], v.fieldValues[k], tag)
    ensures BindInto(env, t, v, data, tag).err.Some?
  {
    BindFieldsSuccess(env, t, v.fieldValues, 0, data, tag);
    assert BindField(env, t, k, v.fieldValues[k], data, tag).err == Some(TaggedAnonymousStruct);
  }

  /** When it is the first field to fail, the tagged embedded struct is
      reported as such. */
  lemma TaggedEmbeddedStructError(env: Env, t: Type, i: nat, v: Value, data: Values, tag: string)
    requires WellFormed(data) && t.kind.Struct? && i < |t.kind.fields| && HasType(v, t.kind.fields[i].typ)
    requires TaggedEmbeddedStruct(t.kind.fields[i], v, tag)
    ensures BindField(env, t, i, v, data, tag).err == Some(TaggedAnonymousStruct)
  {
  }

  /** A field that can be set directly: exported and not embedded. */
  predicate Plain(f: Field)
  {
    f.exported && !f.anonymous
  }

  /** A field whose tag matches no key, even up to case, is left as it is
      and is not an error. */
  lemma AbsentKeyLeavesField(env: Env, t: Type, i: nat, v: Value, data: Values, tag: string)
    requires WellFormed(data) && t.kind.Struct? && i < |t.kind.fields| && HasType(v, t.kind.fields[i].typ)
    requires var f := t.kind.fields[i]; Plain(f) && TagGet(f.tags, tag) != ""
    requires forall j :: 0 <= j < |data| ==> !EqualFold(data[j].key, TagGet(t.kind.fields[i].tags, tag))
    ensures BindField(env, t, i, v, data, tag) == Outcome(v, None)
  {
  }

  /** A tagged field is bound from the values of its exact key when that
      key is present, even if other keys match up to case. */
  lemma ExactKeyBindsField(env: Env, t: Type, i: nat, v: Value, data: Values, tag: string, j: nat)
    requires WellFormed(data) && t.kind.Struct? && i < |t.kind.fields| && HasType(v, t.kind.fields[i].typ)
    requires var f := t.kind.fields[i]; Plain(f) && TagGet(f.tags, tag) != ""
    requires j < |data| && data[j].key == TagGet(t.kind.fields[i].tags, tag)
    ensures BindField(env, t, i, v, data, tag) == BindValues(env, t.kind.fields[i].typ, v, data[j].values)
  {
    LookupExact(data, data[j].key, j);
  }

  /** Without the exact key, a tagged field is bound from the values of the
      first key that matches up to case. */
  lemma FoldedKeyBindsField(env: Env, t: Type, i: nat, v: Value, data: Values, tag: string, j: nat)
    requires WellFormed(data) && t.kind.Struct? && i < |t.kind.fields| && HasType(v, t.kind.fields[i].typ)
    requires var f := t.kind.fields[i]; Plain(f) && TagGet(f.tags, tag) != ""
    requires forall k :: 0 <= k < |data| ==> data[k].key != TagGet(t.kind.fields[i].tags, tag)
    requires j < |data| && EqualFold(data[j].key, TagGet(t.kind.fields[i].tags, tag))
    requires forall k :: 0 <= k < j ==> !EqualFold(data[k].key, TagGet(t.kind.fields[i].tags, tag))
    ensures BindField(env, t, i, v, data, tag) == BindValues(env, t.kind.fields[i].typ, v, data[j].values)
  {
    var name := TagGet(t.kind.fields[i].tags, tag);
    LookupFallback(data, name);
    var r := Lookup(data, name);
    var i' :| 0 <= i' < |data| && EqualFold(data[i'].key, name) && r.value == data[i'].values
              && forall k :: 0 <= k < i' ==> !EqualFold(data[k].key, name);
    assert i' == j;
  }

  /** An untagged field of struct type is searched for tagged fields of its
      own, unless the struct is a BindUnmarshaler; a TextUnmarshaler does
      not stop the search. Any other untagged field is skipped. */
  lemma UntaggedField(env: Env, t: Type, i: nat, v: Value, data: Values, tag: string)
    requires WellFormed(data) && t.kind.Struct? && i < |t.kind.fields| && HasType(v, t.kind.fields[i].typ)
    requires var f := t.kind.fields[i]; f.exported && !f.typ.kind.Ptr? && TagGet(f.tags, tag) == ""
    ensures var ft := t.kind.fields[i].typ;
      BindField(env, t, i, v, data, tag) ==
        if ft.kind.Struct? && !ft.unmarshaler.ParamUnmarshaler? then BindInto(env, ft, v, data, tag)
        else Outcome(v, None)
  {
  }

  /** A slice field without a custom decoder receives one element per
      value, in order, each coerced from a zero element; if an element
      fails, the field keeps its old value and that element's error is
      returned. */
  lemma SliceFieldElementwise(env: Env, ft: Type, fv: Value, vals: seq<string>)
    requires |vals| > 0 && HasType(fv, ft) && ft.kind.Slice? && ft.unmarshaler.NoUnmarshaler?
    ensures var r := BindValues(env, ft, fv, vals);
      && (r.err.None? <==> forall j :: 0 <= j < |vals| ==> ElementOf(env, ft.kind.of, vals[j]).err.None?)
      && (r.err.None? ==> r.value.SliceV? && |r.value.elems| == |vals|
                          && forall j :: 0 <= j < |vals| ==> r.value.elems[j] == ElementOf(env, ft.kind.of, vals[j]).value)
      && (r.err.Some? ==> r.value == fv
                          && exists k :: 0 <= k < |vals| && ElementOf(env, ft.kind.of, vals[k]).err == r.err
                                       && forall j :: 0 <= j < k ==> ElementOf(env, ft.kind.of, vals[j]).err.None?)
  {
    BuildSliceFirstFailure(env, ft.kind.of, vals);
  }

  /** A field whose type (the pointee, for a pointer) has a custom decoder
      is decoded from the first value only, before the slice and scalar
      rules, and the decoder's error is returned unchanged. */
  lemma CustomDecoderPreempts(env: Env, ft: Type, fv: Value, vals: seq<string>)
    requires |vals| > 0 && HasType(fv, ft) && !DecoderOwner(ft).unmarshaler.NoUnmarshaler?
    ensures var r := BindValues(env, ft, fv, vals);
      if ft.kind.Ptr? then
        var target := if fv.target.None? then Zero(ft.kind.elem) else fv.target.value;
        var d := env.decode(ft.kind.elem, vals[0], target);
        r == Outcome(PtrV(Some(d.value)), CustomError(d.err))
      else
        var d := env.decode(ft, vals[0], fv);
        r == Outcome(d.value, CustomError(d.err))
  {
  }

  /** A non-slice field without a custom decoder is coerced from the first
      value; the other values are ignored. */
  lemma ScalarFieldUsesFirstValue(env: Env, ft: Type, fv: Value, vals: seq<string>)
    requires |vals| > 0 && HasType(fv, ft) && DecoderOwner(ft).unmarshaler.NoUnmarshaler? && !ft.kind.Slice?
    ensures BindValues(env, ft, fv, vals) == BindValues(env, ft, fv, vals[..1])
    ensures !ft.kind.Ptr? ==> BindValues(env, ft, fv, vals) == SetWithProperType(env, ft, vals[0], fv)
  {
  }

  // ---------------------------------------------------------------------
  // The walker keeps every value within its type

  lemma BindValuesKeepsType(env: Env, ft: Type, fv: Value, vals: seq<string>)
    requires DecodersKeepTypes(env) && |vals| > 0 && HasType(fv, ft)
    ensures HasType(BindValues(env, ft, fv, vals).value, ft)
  {
    var u := UnmarshalField(env, ft, vals[0], fv);
    if u.handled {
      match ft.kind
      case Ptr(e) =>
        var target := if fv.target.None? then Zero(e) else fv.target.value;
        assert HasType(env.decode(e, vals[0], target).value, e);
      case _ =>
        assert HasType(env.decode(ft, vals[0], fv).value, ft);
    } else if ft.kind.Slice? {
      var e := ft.kind.of;
      forall j | 0 <= j < |vals|
        ensures HasType(ElementOf(env, e, vals[j]).value, e)
      {
        SetWithProperTypeKeepsType(env, e, vals[j], Zero(e));
      }
    } else {
      SetWithProperTypeKeepsType(env, ft, vals[0], u.value);
    }
  }

  /** bindData leaves a value of the destination's type, whether it
      succeeds or stops at an error. */
  lemma {:induction false} BindIntoKeepsType(env: Env, t: Type, v: Value, data: Values, tag: string)
    requires DecodersKeepTypes(env) && WellFormed(data) && HasType(v, t)
    ensures HasType(BindInto(env, t, v, data, tag).value, t)
    decreases t, 1
  {
    if |data| > 0 && t.kind.Struct? {
      BindFieldsKeepsType(env, t, v.fieldValues, 0, data, tag);
    }
  }

  lemma {:induction false} BindFieldsKeepsType(env: Env, t: Type, vs: seq<Value>, i: nat, data: Values, tag: string)
    requires DecodersKeepTypes(env) && t.kind.Struct? && |vs| == |t.kind.fields| && i <= |vs|
    requires forall j :: 0 <= j < |vs| ==> HasType(vs[j], t.kind.fields[j].typ)
    requires WellFormed(data)
    ensures var r := BindFields(env, t, vs, i, data, tag);
      forall j :: 0 <= j < |vs| ==> HasType(r.value[j], t.kind.fields[j].typ)
    decreases t, 0, |vs| - i, 2
  {
    if i < |vs| {
      BindFieldKeepsType(env, t, i, vs[i], data, tag);
      var f := BindField(env, t, i, vs[i], data, tag);
      if f.err.None? {
        BindFieldsKeepsType(env, t, vs[i := f.value], i + 1, data, tag);
      }
    }
  }

  lemma {:induction false} BindFieldKeepsType(env: Env, t: Type, i: nat, v: Value, data: Values, tag: string)
    requires DecodersKeepTypes(env) && t.kind.Struct? && i < |t.kind.fields|
    requires HasType(v, t.kind.fields[i].typ) && WellFormed(data)
    ensures HasType(BindField(env, t, i, v, data, tag).value, t.kind.fields[i].typ)
    decreases t, 0, |t.kind.fields| - i, 1
  {
    var f := t.kind.fields[i];
    if f.anonymous && f.typ.kind.Ptr? {
      if v.target.Some? && f.exported {
        BindSettableKeepsType(env, t, i, f.typ.kind.elem, v.target.value, true, data, tag);
      }
    } else if f.exported {
      BindSettableKeepsType(env, t, i, f.typ, v, false, data, tag);
    }
  }

  lemma {:induction false} BindSettableKeepsType(env: Env, t: Type, i: nat, ft: Type, fv: Value, viaPtr: bool, data: Values, tag: string)
    requires DecodersKeepTypes(env) && t.kind.Struct? && i < |t.kind.fields|
    requires if viaPtr then t.kind.fields[i].typ.kind == Ptr(ft) else t.kind.fields[i].typ == ft
    requires HasType(fv, ft) && WellFormed(data)
    ensures HasType(BindSettable(env, t, i, ft, fv, viaPtr, data, tag).value, ft)
    decreases t, 0, |t.kind.fields| - i, 0
  {
    var f := t.kind.fields[i];
    var name := TagGet(f.tags, tag);
    if f.anonymous && ft.kind.Struct? && name != "" {
    } else if name == "" {
      if !ft.unmarshaler.ParamUnmarshaler? && ft.kind.Struct? {
        BindIntoKeepsType(env, ft, fv, data, tag);
      }
    } else if !viaPtr {
      match Lookup(data, name)
      case None =>
      case Some(vals) => BindValuesKeepsType(env, ft, fv, vals);
    }
  }
}

=== FILE: wrappers.dfy ===
/** Failure-carrying wrappers shared by the binder model. */
module Wrappers {

  /** An optional value: Go's nil pointer, absent map key or missing error. */
  datatype Option<+T> = None | Some(value: T)

  /** A value or an error, for the Go pattern `(T, error)` when the value is
      meaningless on failure. */
  datatype Result<+T, +E> = Success(value: T) | Failure(error: E)
}
